=== FILE: README.md ===
# FLDatePicker and page behaviours: a Dafny model

This project models the date/time picker of a clinic website theme (`FLDatePicker`) and four
small behaviours of the theme's page script, and proves properties of the model.

A picker is bound to a wrapper element holding a text input. In **date** mode its popover
shows a month grid:
- blank cells come first, up to the weekday of the 1st;
- then comes one button per day;
- a day before the minimum date or after the maximum date is disabled;
- today and the selected day carry marks.

A click on an enabled day commits it. The input then shows the date filled into the format
template ("MM/DD/YYYY" by default) and the popover closes.

In **time** mode (any other `type`) the popover lists, for every hour 0..23, the minutes
0, step, 2·step, … below 60, each labelled in 12-hour form ("1:30 PM"). A click commits the
label.

The keyboard works as follows:
- Arrow keys move focus through the enabled day buttons (±1, ±7) or the options (±1), clamped
  at the ends.
- Enter clicks the focused element.
- Escape closes the popover.

A single shared reference names the open instance. Opening one picker closes the previously
active one. `validate`, `getValue` and `destroy` complete the public interface.

The page-script behaviours modelled are:
- the blog section's "Show More / Show Less" counter;
- the appointment form's custom selects;
- the scroll-spy that picks the top-most visible section;
- the carousel rule that scales the middle of three visible slides.

Modules, in dependency order:
- `Wrappers`, `Seqs`, `Text`: options, first-occurrence search and replace, and the decimal
  text of integers as `String(n)` writes it.
- `Calendar`: proleptic Gregorian days, 0-based months as `getMonth` returns them, weekdays
  with 0 = Sunday, and the month view with its previous/next steps.
- `Format`: `pad`, `formatTime` and `formatDate`, with parsers that read their output back.
- `Grid`: the month grid, its renderer loops, the title, and the cells the keyboard moves
  through.
- `TimeList`: the time options, their order and labels, and the renderer's nested loop.
- `Keyboard`: the calendar and time-list key handlers.
- `Picker`: one instance, covering option defaulting, construction, show/hide, clicks,
  validation, `getValue`, the month buttons and detaching.
- `Coordinator`: all pickers of a page plus the active-instance reference, every event as a
  transition, and the single-open invariant over runs of events.
- `Blog`, `Appointment`, `NavScroll`, `Slides`: the page-script behaviours.

Two points about the code that the model makes precise:
- **Time list.** The minute loop starts again at 0 every hour. So the list equals every
  multiple of the step below 24 hours only when the step divides 60
  (`TimeList.DividingStepIsMultiples`). With a 7-minute step it lists 216 options, against
  206 multiples of 7 (`TimeList.SevenMinuteStep`).
- **Date bounds.** Each cell's midnight `Date` is compared with the bounds using `<` and `>`.
  A bound is modelled as a calendar day, that is, a midnight `Date`
  (`Grid.DisabledByComparison`).

## Model

| member | source | states |
|---|---|---|
| Format.Pad | assets/js/fl-datepicker.js:30-32 | the text is all digits and reads back as `n`; it has at least two characters, exactly two for `n < 100` |
| Format.Hour12 | assets/js/fl-datepicker.js:51 | the 12-hour number is in 1..12 and congruent to the hour modulo 12 |
| Format.FormatTime | assets/js/fl-datepicker.js:49-53 | the label ends in " PM" exactly when hours ≥ 12 and in " AM" exactly when hours < 12 |
| Format.FormatTimeRoundTrip | assets/js/fl-datepicker.js:49-53 | for every time of day, parsing the label gives back the hour and minute |
| Format.FormatTimeInjective | assets/js/fl-datepicker.js:49-53 | two times of day have the same label if and only if they are the same time |
| Format.FormatDate | assets/js/fl-datepicker.js:42-47 | under "MM/DD/YYYY" the text is padded month+1, "/", padded day, "/", the year, and it parses back to the date; a template with no token comes back unchanged |
| Format.FillDefaultTemplate | assets/js/fl-datepicker.js:46 | the three first-occurrence replacements, applied in turn to "MM/DD/YYYY", give month "/" day "/" year |
| Format.DefaultRoundTrip | assets/js/fl-datepicker.js:42-47 | the default-format text of every valid date parses back to that date |
| Calendar.IsSameDay | assets/js/fl-datepicker.js:34-40 | true exactly when year, month and day all agree, i.e. the two days are equal |
| Calendar.DaysInMonth | assets/js/fl-datepicker.js:199 | every month has 28..31 days; February has 29 exactly in leap years |
| Calendar.MonthEndIsDayZero | assets/js/fl-datepicker.js:199 | day 0 of month m+1 is the same day as the last day of month m |
| Calendar.DecemberEnd | assets/js/fl-datepicker.js:199 | for December, day 0 of "month 12" carries into the next year and is still 31 December |
| Calendar.NextDayNumber | assets/js/fl-datepicker.js:219 | the day after a date has a day number one greater, across month and year ends |
| Calendar.NextDayWeekday | assets/js/fl-datepicker.js:198 | the weekday of the next day is the weekday plus one, modulo 7 |
| Calendar.WeekdayAnchors | assets/js/fl-datepicker.js:198 | 1 January 1970 is a Thursday (4) and 1 January 2025 a Wednesday (3), as `getDay` reports |
| Calendar.BeforeIsLexicographic | assets/js/fl-datepicker.js:234-239 | for valid days, comparing day numbers (`Date` order) is the same as comparing year, then month, then day |
| Calendar.DayNumberInjective | assets/js/fl-datepicker.js:219 | two valid days have the same day number if and only if they are equal |
| Calendar.PrevMonth | assets/js/fl-datepicker.js:376-380 | the view stays valid, its month index drops by one, and the year drops exactly when leaving January |
| Calendar.NextMonth | assets/js/fl-datepicker.js:386-390 | the view stays valid, its month index grows by one, and the year grows exactly when leaving December |
| Calendar.PrevNextInverse | assets/js/fl-datepicker.js:374-392 | the previous and next steps undo each other |
| Grid.FirstWeekday | assets/js/fl-datepicker.js:198 | the number of leading blanks is a weekday, 0..6 |
| Grid.Title | assets/js/fl-datepicker.js:192-193 | the title "Month YYYY" parses back to the view it was made from |
| Grid.Layout | assets/js/fl-datepicker.js:203-248 | the grid has first-weekday + days-in-month cells; the first cells are blanks; day d sits at position first-weekday + d − 1 with the disabled rule applied |
| Grid.RenderDays | assets/js/fl-datepicker.js:191-248 | the two render loops produce exactly the grid `Layout` describes |
| Grid.RenderBlanks | assets/js/fl-datepicker.js:203-209 | the blank loop produces the grid's first first-weekday cells |
| Grid.RenderDayButtons | assets/js/fl-datepicker.js:211-248 | the day loop, with its two disabling tests, completes the blanks to the whole grid |
| Grid.DayColumn | assets/js/fl-datepicker.js:198-212 | in a seven-column grid day d falls in the column of its own weekday |
| Grid.DisabledByComparison | assets/js/fl-datepicker.js:232-239 | a day is disabled exactly when it is `<` the minimum or `>` the maximum in `Date` order; an absent bound disables nothing |
| Grid.MinDateInMonth | assets/js/fl-datepicker.js:233-236 | with a minimum date inside the month and no maximum, exactly the days before it are disabled |
| Grid.SelectedMarkPlacement | assets/js/fl-datepicker.js:226-230 | the selected mark is on cell i exactly when the selected day lies in the month on display and i is its position, so it is on at most one cell |
| Grid.TodayMarkPlacement | assets/js/fl-datepicker.js:221-224 | the today mark is on cell i exactly when today lies in the month on display and i is its position |
| Grid.EnabledDayAt | assets/js/fl-datepicker.js:251-258 | a click yields a day exactly for an in-grid, non-blank, non-disabled cell, and that day is the cell's |
| Grid.Navigable | assets/js/fl-datepicker.js:406-410 | the arrow-key list holds every enabled day position and nothing else, strictly in grid order |
| Grid.JanuaryExample | assets/js/fl-datepicker.js:198 | the January 2025 grid opens with three blanks |
| TimeList.SlotCount | assets/js/fl-datepicker.js:282-283 | the list has 24 · PerHour(step) options |
| TimeList.PerHourIsCeiling | assets/js/fl-datepicker.js:283 | options per hour is the ceiling of 60/step: PerHour·step ≥ 60 > (PerHour−1)·step |
| TimeList.SlotAt | assets/js/fl-datepicker.js:282-284 | option h·PerHour + j is hour h, minute j·step, and that minute is below 60 |
| TimeList.SlotsOrdered | assets/js/fl-datepicker.js:282-283 | every option is a time of day, and the options strictly increase in time |
| TimeList.LabelsDistinct | assets/js/fl-datepicker.js:284 | no two options carry the same label |
| TimeList.TimeLabels | assets/js/fl-datepicker.js:284-290 | one label per option, the i-th being option i's formatted time |
| TimeList.FirstLabel | assets/js/fl-datepicker.js:282-284 | the first option is "12:00 AM" |
| TimeList.QuarterHours | assets/js/fl-datepicker.js:282-284 | with the default 15-minute step there are 4 per hour, 96 in all, the last "11:45 PM" |
| TimeList.HalfHours | assets/js/fl-datepicker.js:282-284 | with a 30-minute step there are 48 options and option 27 is "1:30 PM" |
| TimeList.DividingStepIsMultiples | assets/js/fl-datepicker.js:282-283 | when the step divides 60 the list is exactly the multiples of the step below 1440 minutes |
| TimeList.SevenMinuteStep | assets/js/fl-datepicker.js:282-283 | with a 7-minute step the list has 216 options where the multiples of 7 below 1440 number 206 |
| TimeList.RenderTimeList | assets/js/fl-datepicker.js:277-299 | the nested loop renders one option per time of day, in list order |
| TimeList.RenderHour | assets/js/fl-datepicker.js:283-298 | the inner loop renders the options of hour h |
| TimeList.RenderedOptions | assets/js/fl-datepicker.js:284-295 | option i is labelled with time i and is marked exactly when its label is the selected value |
| TimeList.SelectedOptionUnique | assets/js/fl-datepicker.js:292-295 | option i has the label of option k exactly when i = k, so at most one option is marked |
| Keyboard.Step | assets/js/fl-datepicker.js:414-431 | the new index stays in the list and is the old index plus the move, clamped to the ends |
| Keyboard.HandleKey | assets/js/fl-datepicker.js:402-443 | nothing happens without a focused element in the list; Enter activates exactly the focused element; an arrow moves focus to the clamped position if and only if that position differs from the current one, and otherwise does nothing; other keys do nothing |
| Keyboard.CalendarKey | assets/js/fl-datepicker.js:402-443 | in the month grid only the four arrows and Enter act; Enter activates exactly the focused day; an arrow focuses the day one or seven positions away, clamped to the list, exactly when that position differs from the current one, and otherwise does nothing |
| Keyboard.TimeKey | assets/js/fl-datepicker.js:446-478 | in the time list only Down, Up and Enter act; Enter activates exactly the focused option; Down and Up focus the neighbouring option, clamped to the list, exactly when that position differs from the current one, and otherwise do nothing |
| Keyboard.CalendarArrows | assets/js/fl-datepicker.js:415-442 | with distinct days, the four arrows move focus by ±1 or ±7 positions clamped to the list, or not at all at an end |
| Keyboard.TimeArrows | assets/js/fl-datepicker.js:457-477 | down and up move focus by one option, clamped; other keys except Enter do nothing |
| Picker.Resolve | assets/js/fl-datepicker.js:79-82 | without an options object every option takes its default; for each of the seven keys separately, a given value (an explicit null bound included) wins over the default and an absent one falls back to it |
| Picker.ResolveGiven | assets/js/fl-datepicker.js:79-82 | resolving options that spell out every key returns them unchanged; an empty options object resolves like none |
| Picker.Construct | assets/js/fl-datepicker.js:73-100 | a missing wrapper or input gives the matching console warning and no picker; otherwise the picker is closed, unselected, shows today's month and carries the placeholder when one is configured |
| Picker.Show | assets/js/fl-datepicker.js:499-511 | the picker opens; a calendar with a selection jumps to the selected month, otherwise the view is kept; nothing else changes |
| Picker.Hide | assets/js/fl-datepicker.js:550-552 | the picker closes and nothing else changes |
| Picker.Validate | assets/js/fl-datepicker.js:561-568 | it passes exactly when the input is non-empty, and the error mark is raised exactly when it fails |
| Picker.GetValue | assets/js/fl-datepicker.js:575-580 | a calendar returns its selected date or null; a time picker returns its selected label, or null when there is none or it is empty |
| Picker.ClickCell | assets/js/fl-datepicker.js:251-261 | a click commits exactly on an enabled day; the day becomes the selection, the input shows its formatted text and the error clears; any other click changes nothing |
| Picker.CellDay | assets/js/fl-datepicker.js:246-258 | the day read from a clickable cell is a real day of the month on display, and sits at its grid position |
| Picker.DayCommitted | assets/js/fl-datepicker.js:258-260 | after a day is committed, `getValue` returns it, the default-format input text reads back to it, and the re-rendered grid marks exactly that cell |
| Picker.ClickOption | assets/js/fl-datepicker.js:302-307 | a click on an option commits its label as selection and input text and clears the error; a position outside the list changes nothing |
| Picker.OptionCommitted | assets/js/fl-datepicker.js:302-306 | after an option is committed, `getValue` returns its label, the input reads back as its time, and the re-rendered list marks that option only |
| Picker.PrevView | assets/js/fl-datepicker.js:374-382 | the previous-month button moves the view back one month and changes nothing else |
| Picker.NextView | assets/js/fl-datepicker.js:384-392 | the next-month button moves the view on one month and changes nothing else |
| Picker.PrevNextRestore | assets/js/fl-datepicker.js:374-392 | the two buttons undo each other and keep the selection |
| Picker.Detach | assets/js/fl-datepicker.js:583-589 | `destroy` removes the popover from the page and leaves the open flag as it was |
| Coordinator.AtMostOneOpen | assets/js/fl-datepicker.js:15-16 | while every open picker is the active one, no two pickers are open |
| Coordinator.Close | assets/js/fl-datepicker.js:549-558 | the picker is hidden; the reference is cleared exactly when it named this picker |
| Coordinator.Open | assets/js/fl-datepicker.js:493-513 | a different active picker is closed first; this one is shown and becomes active; every other picker is unchanged |
| Coordinator.Toggle | assets/js/fl-datepicker.js:318-325 | an input click flips the open state: an open picker is hidden, and the reference is cleared if it named this picker and kept otherwise; a closed one is shown and becomes active; opening also hides the previously active picker, and every other picker is unchanged |
| Coordinator.InputKey | assets/js/fl-datepicker.js:328-340 | Enter and Space toggle, Escape closes an open popover, other keys change nothing |
| Coordinator.ClickDay | assets/js/fl-datepicker.js:251-263 | a committing click leaves the picker hidden with the new selection; the reference is cleared if it named this picker and kept otherwise; every other picker is unchanged; any other click changes nothing |
| Coordinator.ClickTime | assets/js/fl-datepicker.js:302-310 | a committing option click leaves the picker hidden with the new label; the reference is cleared if it named this picker and kept otherwise; every other picker is unchanged; any other click changes nothing |
| Coordinator.PopoverKey | assets/js/fl-datepicker.js:343-353 | Escape closes; otherwise the calendar or time handler decides by mode, and only an Enter activation changes the page, as the matching click would |
| Coordinator.EnterCommitsDay | assets/js/fl-datepicker.js:432-435 | Enter on a focused enabled day commits it and closes the picker |
| Coordinator.OutsideClick | assets/js/fl-datepicker.js:356-360 | a document click closes every open picker whose wrapper does not hold the target, leaves every other picker as it was, and clears the reference exactly when its picker was open and the target is outside it |
| Coordinator.CloseOutside | assets/js/fl-datepicker.js:356-360 | every open picker whose wrapper does not hold the target closes, the others are untouched, and the reference is cleared when its picker closed |
| Coordinator.Prev | assets/js/fl-datepicker.js:374-382 | the picker takes the previous-month step: its view goes back one month and its selection is kept; the reference and every other picker are kept |
| Coordinator.Next | assets/js/fl-datepicker.js:384-392 | the picker takes the next-month step: its view goes on one month and its selection is kept; the reference and every other picker are kept |
| Coordinator.ValidateAt | assets/js/fl-datepicker.js:561-568 | the result is whether the input is non-empty; the picker is replaced by its validated state, whose error mark is the result's negation; the reference and every other picker are kept |
| Coordinator.Destroy | assets/js/fl-datepicker.js:583-593 | the picker is replaced by its detached state and the reference cleared if it named this picker; the open flag and every other picker are kept |
| Coordinator.Apply | assets/js/fl-datepicker.js:314-399 | an event on one picker changes no picker but that one and the previously active one; a document click changes no closed picker |
| Coordinator.ApplyValid | assets/js/fl-datepicker.js:314-399 | every event keeps the page valid and keeps each picker's options |
| Coordinator.OpenSingle | assets/js/fl-datepicker.js:493-497 | opening keeps "every open picker is the active one" |
| Coordinator.CloseSingle | assets/js/fl-datepicker.js:555-557 | closing keeps "every open picker is the active one" |
| Coordinator.ApplySingle | assets/js/fl-datepicker.js:493-558 | every event except destroying an open picker keeps "every open picker is the active one" |
| Coordinator.FreshSingle | assets/js/fl-datepicker.js:96 | a page of freshly constructed pickers satisfies the single-open rule |
| Coordinator.RunSingle | assets/js/fl-datepicker.js:15-16 | any run of events that destroys no open picker keeps at most one popover open, that of the active instance |
| Coordinator.DestroyWhileOpen | assets/js/fl-datepicker.js:583-593 | destroying an open picker and then opening another leaves both open flags set |
| Blog.Init | assets/js/script.js:473-479 | the counter exists exactly when there are cards and a button, and it starts at three |
| Blog.InitValid | assets/js/script.js:477-479 | the initial state satisfies the counter invariant |
| Blog.Click | assets/js/script.js:520-525 | while cards are hidden a click adds three, not past the last card; once all are shown it collapses to three |
| Blog.ClickValid | assets/js/script.js:520-525 | a click keeps the counter between 3 and max(3, n), at a multiple of three or at n |
| Blog.ClicksValid | assets/js/script.js:520-525 | any number of clicks keeps the counter between 3 and max(3, n) |
| Blog.ExpandSteps | assets/js/script.js:522-525 | k expanding clicks from the start show 3 + 3k cards while that is within the card count |
| Blog.ScrollTarget | assets/js/script.js:529-530 | the card scrolled to after expanding is the last visible one |
| Blog.LabelMatchesClick | assets/js/script.js:509-510 | "Show More" shows exactly when the next click reveals cards; after "Show Less" the click collapses to three and the label returns to "Show More" |
| Blog.ButtonText | assets/js/script.js:509-510 | the label is "Show Less" exactly when every card is displayed, and "Show More" exactly when some card is hidden |
| Blog.HiddenWhenAllFit | assets/js/script.js:511-512 | the button is hidden exactly when the first three cards are all the cards, and clicks never change that |
| Blog.ClickShows | assets/js/script.js:486-488 | which cards are displayed after a click: an expanding click keeps the shown ones and adds the next three, a collapsing click shows exactly the first three |
| Appointment.HideOthers | assets/js/script.js:699-706 | every list but the given one is hidden; that one keeps its state |
| Appointment.GenericHeader | assets/js/script.js:393-400 | the site-wide header listener hides all other lists and flips this one |
| Appointment.FormHeader | assets/js/script.js:579-591 | a click on the active select hides it and clears the reference; on another select it shows that one alone and makes it active |
| Appointment.HeaderClick | assets/js/script.js:579-591 | with both header listeners run, the site-wide one first, every other list ends hidden; this one is shown and made active unless it was active, in which case it is hidden and the reference cleared |
| Appointment.HeaderClickIsFormHeader | assets/js/script.js:579-591 | while at most one list is open, running the site-wide listener first makes no difference |
| Appointment.OptionClick | assets/js/script.js:593-599 | the header takes the option's text, the list hides and the reference clears; other selects are untouched |
| Appointment.DocumentClickAsWritten | assets/js/script.js:412-419 | every list hides but the form's reference is kept |
| Appointment.DocumentClick | assets/js/script.js:412-419 | every list hides and no select stays active |
| Appointment.HeaderKeeps | assets/js/script.js:573-591 | header clicks keep "only the active list is shown" and "the active list is shown" |
| Appointment.OptionKeeps | assets/js/script.js:593-599 | option clicks keep both invariants |
| Appointment.DocumentKeeps | assets/js/script.js:412-419 | the corrected document click establishes both invariants |
| Appointment.HeaderShowsHidden | assets/js/script.js:579-591 | with the invariants, a click on a hidden list's header always shows it and makes it active |
| Appointment.StaleActiveAsWritten | assets/js/script.js:412-419 | open, click elsewhere, click the same header: no list is shown |
| NavScroll.Intersecting | assets/js/script.js:116 | the kept entries are exactly the intersecting ones |
| NavScroll.IntersectingAppend | assets/js/script.js:116 | the filter keeps order and multiplicity: it distributes over concatenation |
| NavScroll.EarliestInEntries | assets/js/script.js:116-123 | the earliest least-top entry of the filtered list is also the earliest among the intersecting entries of the whole batch |
| NavScroll.Reduce | assets/js/script.js:119-123 | the result's top is the least seen, and it is the earliest entry with that top |
| NavScroll.ReduceOver | assets/js/script.js:119-123 | over a non-empty list the reduction gives the first entry whose top is least |
| NavScroll.Topmost | assets/js/script.js:116-123 | nothing is chosen exactly when nothing intersects; otherwise the chosen entry intersects, has the least top, and comes first among ties, both in the filtered list and among the intersecting entries of the batch |
| NavScroll.OnEntries | assets/js/script.js:116-133 | a batch with no intersecting entry changes nothing; otherwise the hash names the top-most section and exactly the links pointing there are active |
| Slides.VisibleBelow | assets/js/script.js:678-680 | the filtered list holds the visible slides in order, each at the index given by the count of visible slides before it |
| Slides.ScaleMiddle | assets/js/script.js:675-685 | one mark per slide; a slide is scaled exactly when three slides are visible and it is the visible one with one visible slide before it |
| Slides.AtMostOneScaled | assets/js/script.js:676-683 | no two slides are scaled together |
| Slides.ScaledWhenThree | assets/js/script.js:682-684 | some slide is scaled exactly when three are visible |

## Findings

| source | as written | input that shows it | evidently intended | confidence | as-written member | corrected member |
|---|---|---|---|---|---|---|
| assets/js/script.js:412-419 | The site-wide document listener hides every custom-select list. It does not clear the appointment form's `activeAppointmentSelect`. | Open an appointment select, click elsewhere, then click the same header again. The site-wide header listener shows the list, then the form listener sees the stale reference and hides it. No list appears. | A click elsewhere also clears the form's reference, so the next header click shows the list. | not executed | Appointment.StaleActiveAsWritten | Appointment.HeaderShowsHidden |

`Appointment.DocumentClickAsWritten` models the listener as written. `Appointment.DocumentClick`
is the corrected one that the invariant lemmas use.

## Left out

- The DOM, CSS classes, ARIA attributes, `tabIndex`, `preventDefault` and `stopPropagation` are not modelled. Events are modelled as the transitions they cause. Stopped propagation shows up as the input, popover and cell clicks never reaching the document listener.
- The clock (`new Date()`) is a parameter: `today` for construction, and the today mark. The focus work in `requestAnimationFrame`, `scrollIntoView` and `_positionPopover` is layout and timing.
- The `focusout` listener (fl-datepicker.js:363-370) is left out. It closes the picker a tick after focus leaves the wrapper, and it depends on timers and the focused element.
- `_buildPopover` and `_buildTimeList` are left out: they only create elements.
- The day-label row is left out for the same reason.
- A given `null`, or a value of the wrong type, for an option other than the two date bounds is not modelled, because option values are typed.
- A `timeStep` that is not a positive integer is not modelled; the model's step is an integer of at least 1. A step of zero or below would keep the minute loop from ever ending. A fractional step would need real minutes: with a step of 7.5 the loop gives minutes such as 7.5, `pad` writes them as "07.5", and the labels read like "12:07.5 AM".
- Bounds are calendar days. A bound carrying a time of day, which can disable the bound's own day, is not modelled. Neither is an invalid `Date`.
- `new Date(y, m, d)` maps years 0..99 to 1900..1999. The model keeps the year as given.
- `destroy` leaves listeners registered. The model only records that the popover is detached.
- The blog's opacity transitions, `display` toggling, `disabled` flag and smooth scrolling with its 113-pixel offset are timing and layout. Only the counter, the shown cards, the label and the scroll target are modelled.
- The scroll-spy's threshold, `history.replaceState` and the observer itself are left out. The hash is a field, and entries arrive as a list with their top edges as reals.
- Swiper's computation of which slides are visible is left out; visibility is an input. The 100 ms throttle is timing.
- The generic custom popups (script.js:422-463) are not part of this model. Neither are the other page behaviours: menus, sticky header, lazy images, flip cards, back-to-top.

=== FILE: appointment.dfy ===
/** The custom selects of the appointment form: a header that shows the chosen text and an
    option list that drops down. The form keeps a reference to the active select so that at
    most one list is shown. Each header also carries the site-wide custom-select listener,
    registered earlier, and the site-wide document listener closes every list on a click
    elsewhere. */
module Appointment {
  import opened Wrappers

  /** Per select: whether its list is shown, and its header text; plus the active select. */
  datatype Selects = Selects(open: seq<bool>, headers: seq<string>, active: Option<int>)

  predicate Valid(s: Selects) {
    |s.open| == |s.headers| && (s.active.Some? ==> 0 <= s.active.value < |s.open|)
  }

  /** Every shown list belongs to the active select. */
  predicate SingleOpen(s: Selects) {
    forall j :: 0 <= j < |s.open| && s.open[j] ==> s.active == Some(j)
  }

  /** The active select's list is shown. */
  predicate ActiveShown(s: Selects) {
    s.active.Some? ==> 0 <= s.active.value < |s.open| && s.open[s.active.value]
  }

  /** Hide every list but the one of select `except`. */
  function HideOthers(open: seq<bool>, except: int): (r: seq<bool>)
    ensures |r| == |open|
    ensures forall j :: 0 <= j < |open| ==> r[j] == (open[j] && j == except)
  {
    seq(|open|, j requires 0 <= j < |open| => open[j] && j == except)
  }

  /** The site-wide header listener: hide every other list, then flip this one. */
  function GenericHeader(open: seq<bool>, i: int): (r: seq<bool>)
    requires 0 <= i < |open|
    ensures |r| == |open| && r[i] == !open[i]
    ensures forall j :: 0 <= j < |open| && j != i ==> !r[j]
  {
    HideOthers(open, i)[i := !open[i]]
  }

  /** The appointment form's own header listener: a click on the active select hides its list
      and clears the reference; a click on any other select hides the other lists, shows its
      own and makes it active. */
  function FormHeader(s: Selects, i: int): (r: Selects)
    requires Valid(s) && 0 <= i < |s.open|
    ensures Valid(r) && r.headers == s.headers
    ensures s.active == Some(i) ==> !r.open[i] && r.active.None?
    ensures s.active != Some(i) ==> r.open[i] && r.active == Some(i)
    ensures s.active != Some(i) ==> forall j :: 0 <= j < |s.open| && j != i ==> !r.open[j]
    ensures s.active == Some(i) ==> forall j :: 0 <= j < |s.open| && j != i ==> r.open[j] == s.open[j]
  {
    if s.active == Some(i) then s.(open := s.open[i := false], active := None)
    else s.(open := HideOthers(s.open, i)[i := true], active := Some(i))
  }

  /** A click on header `i`: both listeners run, the site-wide one first. Whatever was shown
      before, every other list ends hidden; this one is shown and made active unless it was
      the active one, in which case it is hidden and the reference cleared. */
  function HeaderClick(s: Selects, i: int): (r: Selects)
    requires Valid(s) && 0 <= i < |s.open|
    ensures Valid(r) && r.headers == s.headers
    ensures forall j :: 0 <= j < |s.open| && j != i ==> !r.open[j]
    ensures s.active == Some(i) ==> !r.open[i] && r.active.None?
    ensures s.active != Some(i) ==> r.open[i] && r.active == Some(i)
  {
    FormHeader(s.(open := GenericHeader(s.open, i)), i)
  }

  /** While at most one list is shown, the site-wide listener makes no difference: the click
      acts as the form's own listener says. */
  lemma HeaderClickIsFormHeader(s: Selects, i: int)
    requires Valid(s) && 0 <= i < |s.open| && SingleOpen(s)
    ensures HeaderClick(s, i) == FormHeader(s, i)
  {
    var r := HeaderClick(s, i);
    var f := FormHeader(s, i);
    assert |r.open| == |f.open|;
    forall j | 0 <= j < |s.open|
      ensures r.open[j] == f.open[j]
    {
    }
  }

  /** A click on an option of select `i` (shown, so its list is open): the header takes the
      option's text, the list hides and the reference is cleared. */
  function OptionClick(s: Selects, i: int, text: string): (r: Selects)
    requires Valid(s) && 0 <= i < |s.open|
    ensures Valid(r) && |r.open| == |s.open| && !r.open[i] && r.active.None? && r.headers == s.headers[i := text]
    ensures forall j :: 0 <= j < |s.open| && j != i ==> r.open[j] == s.open[j] && r.headers[j] == s.headers[j]
  {
    Selects(s.open[i := false], s.headers[i := text], None)
  }

  /** The site-wide document listener as written: every list hides, but the form's reference
      is left as it was. */
  function DocumentClickAsWritten(s: Selects): (r: Selects)
    ensures |r.open| == |s.open| && forall j :: 0 <= j < |r.open| ==> !r.open[j]
    ensures r.active == s.active && r.headers == s.headers
  {
    s.(open := seq(|s.open|, _ => false))
  }

  /** The document click as evidently intended: every list hides and no select stays active. */
  function DocumentClick(s: Selects): (r: Selects)
    ensures |r.open| == |s.open| && forall j :: 0 <= j < |r.open| ==> !r.open[j]
    ensures r.active.None? && r.headers == s.headers
  {
    Selects(seq(|s.open|, _ => false), s.headers, None)
  }

  /** Header clicks, option clicks and (corrected) document clicks keep at most one list
      shown, and keep the active select's list shown. */
  lemma HeaderKeeps(s: Selects, i: int)
    requires Valid(s) && 0 <= i < |s.open| && SingleOpen(s) && ActiveShown(s)
    ensures Valid(HeaderClick(s, i)) && SingleOpen(HeaderClick(s, i)) && ActiveShown(HeaderClick(s, i))
  {
    HeaderClickIsFormHeader(s, i);
  }

  lemma OptionKeeps(s: Selects, i: int, text: string)
    requires Valid(s) && 0 <= i < |s.open| && s.open[i] && SingleOpen(s) && ActiveShown(s)
    ensures SingleOpen(OptionClick(s, i, text)) && ActiveShown(OptionClick(s, i, text))
  {
  }

  lemma DocumentKeeps(s: Selects)
    requires Valid(s)
    ensures Valid(DocumentClick(s)) && SingleOpen(DocumentClick(s)) && ActiveShown(DocumentClick(s))
  {
  }

  /** With the corrected document click, a click on the header of a hidden list always shows
      it. */
  lemma HeaderShowsHidden(s: Selects, i: int)
    requires Valid(s) && 0 <= i < |s.open| && SingleOpen(s) && ActiveShown(s) && !s.open[i]
    ensures HeaderClick(s, i).open[i] && HeaderClick(s, i).active == Some(i)
  {
    HeaderClickIsFormHeader(s, i);
  }

  /** As written, the document click leaves a hidden list active, and the next click on its
      header hides it again instead of showing it: with two selects, open the first, click
      elsewhere, click the first header again, and no list is shown. */
  lemma StaleActiveAsWritten()
    ensures var s0 := Selects([false, false], ["", ""], None);
            var s1 := HeaderClick(s0, 0);
            var s2 := DocumentClickAsWritten(s1);
            var s3 := HeaderClick(s2, 0);
            && s1.open[0] && !s2.open[0] && !ActiveShown(s2) && !s3.open[0] && !s3.open[1]
  {
    var s0 := Selects([false, false], ["", ""], None);
    var s1 := HeaderClick(s0, 0);
    assert s1.active == Some(0) && s1.open[0];
    var s2 := DocumentClickAsWritten(s1);
    assert s2.active == Some(0);
    var s3 := HeaderClick(s2, 0);
    assert s3.open == s2.open[0 := true][0 := false];
  }
}

=== FILE: blog.dfy ===
/** The blog section's "Show More / Show Less" button: how many cards are visible, which cards
    are shown, and what the button reads. */
module Blog {
  import opened Wrappers

  /** Cards revealed at first and added by each expanding click. */
  const CardsToShow: nat := 3

  /** `n` cards in the section, of which the first `visible` are shown. */
  datatype Section = Section(n: nat, visible: nat)

  /** Setting up the section: nothing happens without cards or without the button. */
  function Init(n: nat, hasButton: bool): (s: Option<Section>)
    ensures s.Some? <==> n > 0 && hasButton
    ensures s.Some? ==> s.value == Section(n, CardsToShow)
  {
    if n == 0 || !hasButton then None else Some(Section(n, CardsToShow))
  }

  /** A click expands while some card is hidden, by three cards but not past the last one;
      once all are shown it collapses back to three. */
  function Click(s: Section): (r: Section)
    ensures r.n == s.n
    ensures s.visible < s.n ==> r.visible == if s.visible + CardsToShow < s.n then s.visible + CardsToShow else s.n
    ensures s.visible >= s.n ==> r.visible == CardsToShow
  {
    var expanding := s.visible < s.n;
    var next := if expanding then Min(s.visible + CardsToShow, s.n) else CardsToShow;
    s.(visible := next)
  }

  function Min(a: nat, b: nat): nat {
    if a < b then a else b
  }

  /** Whether card `i` is displayed. */
  predicate Shown(s: Section, i: nat) {
    i < s.visible
  }

  /** The button's label: "Show Less" exactly when every card is displayed, "Show More"
      exactly when some card is still hidden. */
  function ButtonText(s: Section): (t: string)
    ensures t == "Show Less" <==> forall i: nat :: i < s.n ==> Shown(s, i)
    ensures t == "Show More" <==> exists i: nat :: i < s.n && !Shown(s, i)
  {
    if s.visible >= s.n then "Show Less"
    else
      assert !Shown(s, s.visible);
      "Show More"
  }

  /** The button is hidden when there are no more cards than the first batch. */
  predicate ButtonHidden(s: Section) {
    s.n <= CardsToShow
  }

  /** The card scrolled to after an expanding click: the last one now visible. */
  function ScrollTarget(s: Section): (i: int)
    requires 0 < s.visible
    requires 0 < s.n
    ensures 0 <= i < s.n && i < s.visible
    ensures s.visible <= s.n ==> i == s.visible - 1
  {
    Min(s.visible - 1, s.n - 1)
  }

  /** What every reachable section satisfies: at least three and at most max(3, n) visible,
      and the count is three, a multiple of three, or all cards. */
  predicate Valid(s: Section) {
    CardsToShow <= s.visible && (s.visible <= CardsToShow || s.visible <= s.n)
    && (s.visible % CardsToShow == 0 || s.visible == s.n)
  }

  lemma InitValid(n: nat, hasButton: bool)
    ensures Init(n, hasButton).Some? ==> Valid(Init(n, hasButton).value)
  {
  }

  lemma ClickValid(s: Section)
    requires Valid(s)
    ensures Valid(Click(s))
  {
  }

  /** Clicks applied in order. */
  function Clicks(s: Section, k: nat): Section
    decreases k
  {
    if k == 0 then s else Clicks(Click(s), k - 1)
  }

  /** However many clicks, the count of visible cards stays between 3 and max(3, n). */
  lemma {:induction false} ClicksValid(s: Section, k: nat)
    requires Valid(s)
    ensures Valid(Clicks(s, k))
    ensures CardsToShow <= Clicks(s, k).visible <= if s.n < CardsToShow then CardsToShow else s.n
    decreases k
  {
    if k > 0 {
      ClickValid(s);
      ClicksValid(Click(s), k - 1);
    }
  }

  /** Starting from three cards, `k` clicks that still find hidden cards show 3 + 3k cards. */
  lemma {:induction false} ExpandSteps(n: nat, k: nat)
    requires CardsToShow + CardsToShow * k <= n
    ensures Clicks(Section(n, CardsToShow), k) == Section(n, CardsToShow + CardsToShow * k)
  {
    if k > 0 {
      ExpandSteps(n, k - 1);
      ClicksLast(Section(n, CardsToShow), k - 1);
    }
  }

  lemma {:induction false} ClicksLast(s: Section, k: nat)
    ensures Clicks(s, k + 1) == Click(Clicks(s, k))
    decreases k
  {
    if k > 0 {
      ClicksLast(Click(s), k - 1);
    }
  }

  /** The label tells what the next click does: "Show More" exactly when it reveals more
      cards; otherwise it collapses to the first batch, after which the label reads
      "Show More" again whenever there are more cards than that. */
  lemma LabelMatchesClick(s: Section)
    requires Valid(s)
    ensures ButtonText(s) == "Show More" <==> Click(s).visible > s.visible
    ensures ButtonText(s) == "Show Less" ==> Click(s).visible == CardsToShow
    ensures ButtonText(s) == "Show Less" && s.n > CardsToShow ==> ButtonText(Click(s)) == "Show More"
  {
  }

  /** The button is hidden exactly when the first batch already displays every card, and no
      click changes whether it is hidden. */
  lemma HiddenWhenAllFit(n: nat, hasButton: bool)
    requires Init(n, hasButton).Some?
    ensures var s := Init(n, hasButton).value;
            && (ButtonHidden(s) <==> forall i: nat :: i < n ==> Shown(s, i))
            && (ButtonHidden(s) <==> ButtonHidden(Click(s)))
  {
    var s := Init(n, hasButton).value;
    if !ButtonHidden(s) {
      assert !Shown(s, CardsToShow);
    }
  }

  /** Which cards a click displays: an expanding click keeps the shown cards and adds the next
      three that exist; a collapsing click shows exactly the first three. */
  lemma ClickShows(s: Section, i: nat)
    requires i < s.n
    ensures s.visible < s.n ==> (Shown(Click(s), i) <==> Shown(s, i) || i < s.visible + CardsToShow)
    ensures s.visible >= s.n ==> (Shown(Click(s), i) <==> i < CardsToShow)
  {
  }
}

=== FILE: calendar.dfy ===
/** The proleptic Gregorian calendar the picker relies on through JavaScript's `Date`:
    months are numbered 0..11 as `getMonth` numbers them, days 1..31, weekdays 0..6 from Sunday. */
module Calendar {

  /** A calendar day. `month` is 0-based, as `Date.prototype.getMonth` returns it. */
  datatype Date = Date(year: int, month: int, day: int) {

    /** A day that exists: the month is 0..11 and the day lies within that month. */
    predicate Valid() {
      0 <= month < 12 && 1 <= day <= DaysInMonth(year, month)
    }
  }

  predicate IsLeapYear(y: int) {
    y % 4 == 0 && (y % 100 != 0 || y % 400 == 0)
  }

  function YearLength(y: int): (n: int)
    ensures n == 365 || n == 366
    ensures n == 366 <==> IsLeapYear(y)
  {
    if IsLeapYear(y) then 366 else 365
  }

  /** Number of days of month `m` of year `y`. */
  function DaysInMonth(y: int, m: int): (n: int)
    requires 0 <= m < 12
    ensures 28 <= n <= 31
    ensures m == 1 ==> (n == 29 <==> IsLeapYear(y))
  {
    if m == 1 then (if IsLeapYear(y) then 29 else 28)
    else if m == 3 || m == 5 || m == 8 || m == 10 then 30
    else 31
  }

  /** Days of the months of year `y` that come before month `m`. */
  function DaysBeforeMonth(y: int, m: int): (n: int)
    requires 0 <= m <= 12
    ensures 28 * m <= n <= 31 * m
    decreases m
  {
    if m == 0 then 0 else DaysBeforeMonth(y, m - 1) + DaysInMonth(y, m - 1)
  }

  /** Days from 0001-01-01 to the first of January of year `y`: 365 per year plus one per
      leap year counted by the Gregorian rule. */
  function DaysBeforeYear(y: int): int {
    365 * (y - 1) + (y - 1) / 4 - (y - 1) / 100 + (y - 1) / 400
  }

  /** Days since 0001-01-01. A month outside 0..11 is first carried into the year, as
      the `Date` constructor does. */
  function DayNumber(date: Date): int {
    var y := date.year + date.month / 12;
    var m := date.month % 12;
    DaysBeforeYear(y) + DaysBeforeMonth(y, m) + date.day - 1
  }

  /** Weekday of a day, 0 = Sunday through 6 = Saturday, as `Date.prototype.getDay`
      numbers them; 0001-01-01 of the proleptic Gregorian calendar is a Monday. */
  function Weekday(date: Date): (w: int)
    ensures 0 <= w < 7
  {
    (DayNumber(date) + 1) % 7
  }

  /** Comparison of two `Date` objects with `<`: an earlier whole day is smaller. */
  predicate Before(a: Date, b: Date) {
    DayNumber(a) < DayNumber(b)
  }

  /** Calendar order written field by field. */
  predicate LexBefore(a: Date, b: Date) {
    a.year < b.year
    || (a.year == b.year && (a.month < b.month || (a.month == b.month && a.day < b.day)))
  }

  /** Same year, month and day. */
  function IsSameDay(a: Date, b: Date): (r: bool)
    ensures r <==> a == b
  {
    a.year == b.year && a.month == b.month && a.day == b.day
  }

  /** The day after `date`. */
  function NextDay(date: Date): (r: Date)
    requires date.Valid()
    ensures r.Valid()
  {
    if date.day < DaysInMonth(date.year, date.month) then Date(date.year, date.month, date.day + 1)
    else if date.month < 11 then Date(date.year, date.month + 1, 1)
    else Date(date.year + 1, 0, 1)
  }

  /** The twelve months of a year add up to its length under the leap-year rule. */
  lemma MonthsFillYear(y: int)
    ensures DaysBeforeMonth(y, 12) == YearLength(y)
  {
  }

  /** The closed formula for `DaysBeforeYear` advances by exactly one year length. */
  lemma YearStep(y: int)
    ensures DaysBeforeYear(y + 1) == DaysBeforeYear(y) + YearLength(y)
  {
    var a := y - 1;
    assert (a + 1) / 4 - a / 4 == (if y % 4 == 0 then 1 else 0);
    assert (a + 1) / 100 - a / 100 == (if y % 100 == 0 then 1 else 0);
    assert (a + 1) / 400 - a / 400 == (if y % 400 == 0 then 1 else 0);
  }

  /** For a month within 0..11 no carrying happens. */
  lemma DayNumberInYear(date: Date)
    requires 0 <= date.month < 12
    ensures DayNumber(date) == DaysBeforeYear(date.year) + DaysBeforeMonth(date.year, date.month) + date.day - 1
  {
    assert date.month / 12 == 0 && date.month % 12 == date.month;
  }

  /** Within a month, `k` days later has a number `k` greater. */
  lemma DaysLater(date: Date, k: int)
    requires 0 <= date.month < 12
    ensures DayNumber(Date(date.year, date.month, date.day + k)) == DayNumber(date) + k
  {
    DayNumberInYear(date);
    DayNumberInYear(Date(date.year, date.month, date.day + k));
  }

  /** `NextDay` is the day whose number is one greater. */
  lemma NextDayNumber(date: Date)
    requires date.Valid()
    ensures DayNumber(NextDay(date)) == DayNumber(date) + 1
  {
    var y, m, d := date.year, date.month, date.day;
    if d < DaysInMonth(y, m) {
      assert NextDay(date) == Date(y, m, d + 1);
      DaysLater(date, 1);
    } else if m < 11 {
      assert NextDay(date) == Date(y, m + 1, 1) && date == Date(y, m, DaysInMonth(y, m));
      MonthTurn(y, m);
    } else {
      assert NextDay(date) == Date(y + 1, 0, 1) && date == Date(y, 11, 31);
      YearTurn(y);
    }
  }

  /** The first of month `m + 1` follows the last day of month `m`. */
  lemma MonthTurn(y: int, m: int)
    requires 0 <= m < 11
    ensures DayNumber(Date(y, m + 1, 1)) == DayNumber(Date(y, m, DaysInMonth(y, m))) + 1
  {
    DayNumberInYear(Date(y, m + 1, 1));
    DayNumberInYear(Date(y, m, DaysInMonth(y, m)));
  }

  /** The first of January of year `y + 1` follows the last of December of year `y`. */
  lemma YearTurn(y: int)
    ensures DayNumber(Date(y + 1, 0, 1)) == DayNumber(Date(y, 11, 31)) + 1
  {
    DayNumberInYear(Date(y + 1, 0, 1));
    DayNumberInYear(Date(y, 11, 31));
    YearStep(y);
    MonthsFillYear(y);
    assert DaysBeforeMonth(y, 12) == DaysBeforeMonth(y, 11) + 31;
  }

  /** The weekday advances by one from each day to the next. */
  lemma NextDayWeekday(date: Date)
    requires date.Valid()
    ensures Weekday(NextDay(date)) == (Weekday(date) + 1) % 7
  {
    var n := DayNumber(date);
    NextDayNumber(date);
    assert Weekday(NextDay(date)) == (n + 2) % 7;
    WeekSucc(n + 1);
  }

  /** Adding `k` days moves the weekday by `k` columns modulo 7. */
  lemma WeekShift(n: int, k: nat)
    ensures (n % 7 + k) % 7 == (n + k) % 7
  {
  }

  lemma WeekSucc(a: int)
    ensures (a + 1) % 7 == (a % 7 + 1) % 7
  {
  }

  lemma {:induction false} DaysBeforeMonthGrows(y: int, m1: int, m2: int)
    requires 0 <= m1 < m2 <= 12
    ensures DaysBeforeMonth(y, m1) + DaysInMonth(y, m1) <= DaysBeforeMonth(y, m2)
    decreases m2
  {
    if m2 > m1 + 1 {
      DaysBeforeMonthGrows(y, m1, m2 - 1);
    }
  }

  lemma {:induction false} DaysBeforeYearGrows(y1: int, y2: int)
    requires y1 < y2
    ensures DaysBeforeYear(y1) + YearLength(y1) <= DaysBeforeYear(y2)
    decreases y2 - y1
  {
    YearStep(y1);
    if y2 > y1 + 1 {
      DaysBeforeYearGrows(y1 + 1, y2);
    }
  }

  /** Position of a valid day inside its year. */
  lemma DayOfYearBounds(date: Date)
    requires date.Valid()
    ensures DayNumber(date) == DaysBeforeYear(date.year) + DaysBeforeMonth(date.year, date.month) + date.day - 1
    ensures DaysBeforeYear(date.year) <= DayNumber(date) < DaysBeforeYear(date.year) + YearLength(date.year)
  {
    DayNumberInYear(date);
    MonthsFillYear(date.year);
    if date.month < 11 {
      DaysBeforeMonthGrows(date.year, date.month, 12);
    }
  }

  /** On days that exist, comparing `Date` objects is calendar order. */
  lemma BeforeIsLexicographic(a: Date, b: Date)
    requires a.Valid() && b.Valid()
    ensures Before(a, b) <==> LexBefore(a, b)
  {
    DayOfYearBounds(a);
    DayOfYearBounds(b);
    if a.year < b.year {
      DaysBeforeYearGrows(a.year, b.year);
    } else if b.year < a.year {
      DaysBeforeYearGrows(b.year, a.year);
    } else if a.month < b.month {
      DaysBeforeMonthGrows(a.year, a.month, b.month);
    } else if b.month < a.month {
      DaysBeforeMonthGrows(a.year, b.month, a.month);
    }
  }

  /** Two days that exist are the same day exactly when their numbers agree. */
  lemma DayNumberInjective(a: Date, b: Date)
    requires a.Valid() && b.Valid()
    ensures DayNumber(a) == DayNumber(b) <==> a == b
  {
    BeforeIsLexicographic(a, b);
    BeforeIsLexicographic(b, a);
  }

  /** `new Date(y, m + 1, 0)` is the last day of month `m`: day 0 of the following month,
      carried into the next year after December, has the number of day `DaysInMonth(y, m)`. */
  lemma MonthEndIsDayZero(y: int, m: int)
    requires 0 <= m < 12
    ensures DayNumber(Date(y, m + 1, 0)) == DayNumber(Date(y, m, DaysInMonth(y, m)))
  {
    if m < 11 {
      DaysLater(Date(y, m, 1), DaysInMonth(y, m) - 1);
      DayNumberInYear(Date(y, m + 1, 0));
      DayNumberInYear(Date(y, m, 1));
    } else {
      DecemberEnd(y);
    }
  }

  lemma DecemberEnd(y: int)
    ensures DayNumber(Date(y, 12, 0)) == DayNumber(Date(y, 11, 31))
  {
    assert DayNumber(Date(y, 12, 0)) == DaysBeforeYear(y + 1) - 1;
    DayNumberInYear(Date(y, 11, 31));
    YearStep(y);
    MonthsFillYear(y);
  }

  /** Weekdays of two known days, fixing the weekday numbering. */
  lemma WeekdayAnchors()
    ensures Weekday(Date(1970, 0, 1)) == 4
    ensures Weekday(Date(2025, 0, 1)) == 3
  {
  }

  // ---------------------------------------------------------------------------
  // The month on display

  /** The month the calendar grid shows (`viewYear`, `viewMonth`). */
  datatype MonthView = MonthView(year: int, month: int) {
    predicate Valid() {
      0 <= month < 12
    }
  }

  /** Months counted from January of year 0. */
  function MonthIndex(v: MonthView): int {
    v.year * 12 + v.month
  }

  /** The "previous month" button: the month is decremented and rolled from 0 to 11 at the
      start of a year, taking the year down with it. */
  function PrevMonth(v: MonthView): (r: MonthView)
    ensures v.Valid() ==> r.Valid() && MonthIndex(r) == MonthIndex(v) - 1
    ensures v.Valid() ==> (r.year == v.year - 1 <==> v.month == 0)
  {
    if v.month - 1 < 0 then MonthView(v.year - 1, 11) else MonthView(v.year, v.month - 1)
  }

  /** The "next month" button: the month is incremented and rolled from 11 to 0 at the end
      of a year, taking the year up with it. */
  function NextMonth(v: MonthView): (r: MonthView)
    ensures v.Valid() ==> r.Valid() && MonthIndex(r) == MonthIndex(v) + 1
    ensures v.Valid() ==> (r.year == v.year + 1 <==> v.month == 11)
  {
    if v.month + 1 > 11 then MonthView(v.year + 1, 0) else MonthView(v.year, v.month + 1)
  }

  /** A valid view is determined by its month count. */
  lemma MonthIndexInjective(v: MonthView, w: MonthView)
    requires v.Valid() && w.Valid()
    requires MonthIndex(v) == MonthIndex(w)
    ensures v == w
  {
    assert v.year == MonthIndex(v) / 12;
    assert w.year == MonthIndex(w) / 12;
  }

  /** Going forward a month and back again, or back and forward, restores the view. */
  lemma PrevNextInverse(v: MonthView)
    requires v.Valid()
    ensures PrevMonth(NextMonth(v)) == v
    ensures NextMonth(PrevMonth(v)) == v
  {
    MonthIndexInjective(PrevMonth(NextMonth(v)), v);
    MonthIndexInjective(NextMonth(PrevMonth(v)), v);
  }
}

=== FILE: coordinator.dfy ===
/** The pickers of one page and the shared reference to the active (open) instance. Opening a
    picker closes the one that was active, so at most one popover is open at a time, as long
    as no open picker is destroyed. */
module Coordinator {
  import opened Wrappers
  import opened Seqs
  import opened Grid
  import opened TimeList
  import opened Keyboard
  import opened Calendar
  import opened Picker

  /** All pickers on the page (by position) and the active-instance reference. */
  datatype Page = Page(pickers: seq<Picker>, active: Option<int>)

  predicate Has(page: Page, i: int) {
    0 <= i < |page.pickers|
  }

  /** Every picker is reachable and renderable, and the reference names a picker. */
  predicate Valid(page: Page) {
    (forall j :: 0 <= j < |page.pickers| ==> page.pickers[j].Valid() && page.pickers[j].Renderable())
    && (page.active.Some? ==> Has(page, page.active.value))
  }

  /** Every open picker is the active one. */
  predicate SingleOpen(page: Page) {
    forall j :: 0 <= j < |page.pickers| && page.pickers[j].isOpen ==> page.active == Some(j)
  }

  /** Hence no two pickers are open together. */
  lemma AtMostOneOpen(page: Page, j: int, k: int)
    requires SingleOpen(page) && Has(page, j) && Has(page, k)
    requires page.pickers[j].isOpen && page.pickers[k].isOpen
    ensures j == k
  {
  }

  /** Replace picker `i`. */
  function Put(page: Page, i: int, p: Picker): (r: Page)
    requires Has(page, i)
    ensures |r.pickers| == |page.pickers| && r.pickers[i] == p && r.active == page.active
    ensures forall j :: 0 <= j < |page.pickers| && j != i ==> r.pickers[j] == page.pickers[j]
  {
    page.(pickers := page.pickers[i := p])
  }

  /** `close` on picker `i`: it is hidden, and the reference is cleared only if it named `i`. */
  function Close(page: Page, i: int): (r: Page)
    requires Has(page, i)
    ensures |r.pickers| == |page.pickers| && !r.pickers[i].isOpen
    ensures r.active == (if page.active == Some(i) then None else page.active)
    ensures r == Put(page, i, Hide(page.pickers[i])).(active := r.active)
  {
    var r := Put(page, i, Hide(page.pickers[i]));
    if page.active == Some(i) then r.(active := None) else r
  }

  /** `open` on picker `i`: the active picker, when it is another one, is closed first; then
      `i` is shown and becomes the active instance. */
  function Open(page: Page, i: int): (r: Page)
    requires Valid(page) && Has(page, i)
    ensures |r.pickers| == |page.pickers|
    ensures r.active == Some(i) && r.pickers[i] == Show(page.pickers[i])
    ensures forall j :: Has(page, j) && j != i ==>
              r.pickers[j] == (if page.active == Some(j) then Hide(page.pickers[j]) else page.pickers[j])
  {
    var closed := if page.active.Some? && page.active.value != i then Close(page, page.active.value) else page;
    Put(closed, i, Show(closed.pickers[i])).(active := Some(i))
  }

  /** A click on the input, or Enter / Space on it, toggles the popover. */
  function Toggle(page: Page, i: int): (r: Page)
    requires Valid(page) && Has(page, i)
    ensures |r.pickers| == |page.pickers|
    ensures r.pickers[i].isOpen <==> !page.pickers[i].isOpen
    ensures r.pickers[i].isOpen ==> r.active == Some(i)
    ensures !r.pickers[i].isOpen ==> r.active != Some(i)
    ensures page.pickers[i].isOpen ==> r.active == (if page.active == Some(i) then None else page.active)
    ensures page.pickers[i].isOpen ==> r.pickers[i] == Hide(page.pickers[i])
    ensures !page.pickers[i].isOpen ==> r.pickers[i] == Show(page.pickers[i])
    ensures forall j :: Has(page, j) && j != i ==>
              r.pickers[j] == (if !page.pickers[i].isOpen && page.active == Some(j) then Hide(page.pickers[j]) else page.pickers[j])
  {
    if page.pickers[i].isOpen then Close(page, i) else Open(page, i)
  }

  /** A key pressed on the input: Enter and Space toggle, Escape closes an open popover,
      everything else is ignored. */
  function InputKey(page: Page, i: int, key: Key): (r: Page)
    requires Valid(page) && Has(page, i)
    ensures key == Enter || key == Space ==> r == Toggle(page, i)
    ensures key == Escape ==> r == (if page.pickers[i].isOpen then Close(page, i) else page)
    ensures key !in {Enter, Space, Escape} ==> r == page
  {
    if key == Enter || key == Space then Toggle(page, i)
    else if key == Escape && page.pickers[i].isOpen then Close(page, i)
    else page
  }

  /** A click on a grid cell of calendar `i`: an enabled day is committed and the picker closes;
      any other cell changes nothing. */
  function ClickDay(page: Page, i: int, k: int): (r: Page)
    requires Valid(page) && Has(page, i) && page.pickers[i].config.IsDate()
    ensures |r.pickers| == |page.pickers|
    ensures !ClickCell(page.pickers[i], k).1 ==> r == page
    ensures ClickCell(page.pickers[i], k).1 ==>
              r.pickers[i] == Hide(ClickCell(page.pickers[i], k).0)
              && r.active == (if page.active == Some(i) then None else page.active)
    ensures forall j :: Has(page, j) && j != i ==> r.pickers[j] == page.pickers[j]
  {
    var (q, committed) := ClickCell(page.pickers[i], k);
    if committed then Close(Put(page, i, q), i) else page
  }

  /** A click on option `j` of time picker `i`: the option is committed and the picker closes. */
  function ClickTime(page: Page, i: int, j: int): (r: Page)
    requires Valid(page) && Has(page, i) && !page.pickers[i].config.IsDate()
    ensures |r.pickers| == |page.pickers|
    ensures !ClickOption(page.pickers[i], j).1 ==> r == page
    ensures ClickOption(page.pickers[i], j).1 ==>
              r.pickers[i] == Hide(ClickOption(page.pickers[i], j).0)
              && r.active == (if page.active == Some(i) then None else page.active)
    ensures forall m :: Has(page, m) && m != i ==> r.pickers[m] == page.pickers[m]
  {
    var (q, committed) := ClickOption(page.pickers[i], j);
    if committed then Close(Put(page, i, q), i) else page
  }

  /** The positions 0..n-1: the options of a time list, in order. */
  function Positions(n: nat): (s: seq<int>)
    ensures |s| == n && forall j :: 0 <= j < n ==> s[j] == j
  {
    seq(n, j => j)
  }

  /** A key pressed inside the popover of picker `i` while the element at `focused` has focus
      (a grid cell position, or an option position). Escape closes; otherwise the calendar or
      time-list handler decides, and Enter clicks the focused element. The second result is
      where focus moves. */
  function PopoverKey(page: Page, i: int, key: Key, focused: Option<int>): (r: (Page, KeyEffect<int>))
    requires Valid(page) && Has(page, i)
    ensures key == Escape ==> r == (Close(page, i), Ignore)
    ensures key != Escape && page.pickers[i].config.IsDate() ==>
              r.1 == CalendarKey(Navigable(Cells(page.pickers[i])), focused, key)
    ensures key != Escape && !page.pickers[i].config.IsDate() ==>
              r.1 == TimeKey(Positions(|Slots(page.pickers[i].config.timeStep)|), focused, key)
    ensures !r.1.Activate? && key != Escape ==> r.0 == page
    ensures r.1.Activate? && page.pickers[i].config.IsDate() ==> r.0 == ClickDay(page, i, r.1.target)
    ensures r.1.Activate? && !page.pickers[i].config.IsDate() ==> r.0 == ClickTime(page, i, r.1.target)
  {
    var p := page.pickers[i];
    if key == Escape then (Close(page, i), Ignore)
    else if p.config.IsDate() then
      var effect := CalendarKey(Navigable(Cells(p)), focused, key);
      if effect.Activate? then (ClickDay(page, i, effect.target), effect) else (page, effect)
    else
      var effect := TimeKey(Positions(|Slots(p.config.timeStep)|), focused, key);
      if effect.Activate? then (ClickTime(page, i, effect.target), effect) else (page, effect)
  }

  /** Enter on a focused, enabled day of an open calendar commits that day and closes it. */
  lemma EnterCommitsDay(page: Page, i: int, k: int)
    requires Valid(page) && Has(page, i) && page.pickers[i].config.IsDate()
    requires Enabled(Cells(page.pickers[i]), k)
    ensures PopoverKey(page, i, Enter, Some(k)).1 == Activate(k)
    ensures var r := PopoverKey(page, i, Enter, Some(k)).0;
            !r.pickers[i].isOpen && r.pickers[i] == Hide(ClickCell(page.pickers[i], k).0)
  {
  }

  /** A click somewhere in the document that no input or popover swallowed. `inside` is the
      picker whose wrapper contains the target, if any. Every other open picker closes, in
      page order. */
  function OutsideClick(page: Page, inside: Option<int>): (r: Page)
    requires Valid(page)
    ensures Valid(r) && |r.pickers| == |page.pickers|
    ensures forall j :: Has(page, j) ==>
              r.pickers[j] == (if page.pickers[j].isOpen && inside != Some(j) then Hide(page.pickers[j]) else page.pickers[j])
    ensures r.active == (if page.active.Some? && page.pickers[page.active.value].isOpen && inside != page.active
                         then None else page.active)
  {
    CloseOutside(page, inside, 0)
  }

  function CloseOutside(page: Page, inside: Option<int>, from: nat): (r: Page)
    requires Valid(page) && from <= |page.pickers|
    ensures Valid(r) && |r.pickers| == |page.pickers|
    ensures forall j :: 0 <= j < from ==> r.pickers[j] == page.pickers[j]
    ensures forall j :: from <= j < |page.pickers| ==>
              r.pickers[j] == (if page.pickers[j].isOpen && inside != Some(j) then Hide(page.pickers[j]) else page.pickers[j])
    ensures r.active == (if page.active.Some? && from <= page.active.value
                            && page.pickers[page.active.value].isOpen && inside != page.active
                         then None else page.active)
    decreases |page.pickers| - from
  {
    if from == |page.pickers| then page
    else
      var next := if page.pickers[from].isOpen && inside != Some(from) then Close(page, from) else page;
      CloseOutside(next, inside, from + 1)
  }

  /** The month buttons of calendar `i`. */
  function Prev(page: Page, i: int): (r: Page)
    requires Valid(page) && Has(page, i) && page.pickers[i].config.IsDate()
    ensures |r.pickers| == |page.pickers|
    ensures r.pickers[i].view == PrevMonth(page.pickers[i].view) && r.active == page.active
    ensures r.pickers[i].selectedDate == page.pickers[i].selectedDate
    ensures r.pickers[i] == PrevView(page.pickers[i])
    ensures forall j :: Has(page, j) && j != i ==> r.pickers[j] == page.pickers[j]
  {
    Put(page, i, PrevView(page.pickers[i]))
  }

  function Next(page: Page, i: int): (r: Page)
    requires Valid(page) && Has(page, i) && page.pickers[i].config.IsDate()
    ensures |r.pickers| == |page.pickers|
    ensures r.pickers[i].view == NextMonth(page.pickers[i].view) && r.active == page.active
    ensures r.pickers[i].selectedDate == page.pickers[i].selectedDate
    ensures r.pickers[i] == NextView(page.pickers[i])
    ensures forall j :: Has(page, j) && j != i ==> r.pickers[j] == page.pickers[j]
  {
    Put(page, i, NextView(page.pickers[i]))
  }

  /** `validate` on picker `i`. */
  function ValidateAt(page: Page, i: int): (r: (Page, bool))
    requires Has(page, i)
    ensures r.1 <==> page.pickers[i].input.value != ""
    ensures |r.0.pickers| == |page.pickers|
    ensures r.0.pickers[i].hasError <==> !r.1
    ensures r.0.active == page.active
    ensures r.0.pickers[i] == Validate(page.pickers[i]).0
    ensures forall j :: Has(page, j) && j != i ==> r.0.pickers[j] == page.pickers[j]
  {
    var (q, ok) := Validate(page.pickers[i]);
    (Put(page, i, q), ok)
  }

  /** `destroy` on picker `i`: its popover leaves the page and the reference is cleared if it
      named `i`, but the open flag is not touched. */
  function Destroy(page: Page, i: int): (r: Page)
    requires Has(page, i)
    ensures |r.pickers| == |page.pickers|
    ensures r.pickers[i].isOpen == page.pickers[i].isOpen && !r.pickers[i].attached
    ensures r.pickers[i] == Detach(page.pickers[i])
    ensures r.active == (if page.active == Some(i) then None else page.active)
    ensures forall j :: Has(page, j) && j != i ==> r.pickers[j] == page.pickers[j]
  {
    var r := Put(page, i, Detach(page.pickers[i]));
    if page.active == Some(i) then r.(active := None) else r
  }

  // ---------------------------------------------------------------------------
  // Runs of events

  /** What can happen on a page: user actions the listeners see, and calls of the public API. */
  datatype Event =
    | InputClick(i: int)
    | InputKeyDown(i: int, key: Key)
    | PopoverKeyDown(i: int, key: Key, focused: Option<int>)
    | CellClick(i: int, k: int)
    | OptionClick(i: int, j: int)
    | DocumentClick(inside: Option<int>)
    | PrevClick(i: int)
    | NextClick(i: int)
    | OpenCall(i: int)
    | CloseCall(i: int)
    | ValidateCall(i: int)
    | DestroyCall(i: int)

  /** The event names a picker of the page, and one that has the element it acts on: only a
      calendar has grid cells and month buttons, only a time picker has options. */
  predicate Applicable(page: Page, e: Event) {
    match e
    case DocumentClick(inside) => inside.Some? ==> Has(page, inside.value)
    case CellClick(i, _) => Has(page, i) && page.pickers[i].config.IsDate()
    case PrevClick(i) => Has(page, i) && page.pickers[i].config.IsDate()
    case NextClick(i) => Has(page, i) && page.pickers[i].config.IsDate()
    case OptionClick(i, _) => Has(page, i) && !page.pickers[i].config.IsDate()
    case _ => Has(page, e.i)
  }

  /** The page after event `e`. An event on picker `i` touches no picker but `i` and the one
      that was active; a document click touches no closed picker. */
  function Apply(page: Page, e: Event): (r: Page)
    requires Valid(page) && Applicable(page, e)
    ensures |r.pickers| == |page.pickers|
    ensures !e.DocumentClick? ==>
              forall j :: Has(page, j) && j != e.i && page.active != Some(j) ==> r.pickers[j] == page.pickers[j]
    ensures e.DocumentClick? ==>
              forall j :: Has(page, j) && !page.pickers[j].isOpen ==> r.pickers[j] == page.pickers[j]
  {
    match e
    case InputClick(i) => Toggle(page, i)
    case InputKeyDown(i, key) => InputKey(page, i, key)
    case PopoverKeyDown(i, key, focused) => PopoverKey(page, i, key, focused).0
    case CellClick(i, k) => ClickDay(page, i, k)
    case OptionClick(i, j) => ClickTime(page, i, j)
    case DocumentClick(inside) => OutsideClick(page, inside)
    case PrevClick(i) => Prev(page, i)
    case NextClick(i) => Next(page, i)
    case OpenCall(i) => Open(page, i)
    case CloseCall(i) => Close(page, i)
    case ValidateCall(i) => ValidateAt(page, i).0
    case DestroyCall(i) => Destroy(page, i)
  }

  /** The same pickers with the same options: events never change how many pickers there are
      or how they were configured. */
  predicate SameShape(a: Page, b: Page) {
    |a.pickers| == |b.pickers| && forall j :: 0 <= j < |a.pickers| ==> a.pickers[j].config == b.pickers[j].config
  }

  lemma ShowHideValid(p: Picker)
    requires p.Valid()
    ensures Show(p).Valid() && Hide(p).Valid() && Detach(p).Valid()
    ensures Show(p).config == Hide(p).config == Detach(p).config == p.config
  {
  }

  lemma CloseValid(page: Page, i: int)
    requires Valid(page) && Has(page, i)
    ensures Valid(Close(page, i)) && SameShape(page, Close(page, i))
  {
    ShowHideValid(page.pickers[i]);
  }

  lemma OpenValid(page: Page, i: int)
    requires Valid(page) && Has(page, i)
    ensures Valid(Open(page, i)) && SameShape(page, Open(page, i))
  {
    ShowHideValid(page.pickers[i]);
    if page.active.Some? && page.active.value != i {
      CloseValid(page, page.active.value);
    }
  }

  lemma CommitValid(page: Page, i: int, q: Picker)
    requires Valid(page) && Has(page, i) && q.Valid() && q.config == page.pickers[i].config
    ensures Valid(Close(Put(page, i, q), i)) && SameShape(page, Close(Put(page, i, q), i))
  {
    CloseValid(Put(page, i, q), i);
  }

  lemma OutsideValid(page: Page, inside: Option<int>)
    requires Valid(page)
    ensures Valid(OutsideClick(page, inside)) && SameShape(page, OutsideClick(page, inside))
  {
    var r := OutsideClick(page, inside);
    forall j | 0 <= j < |page.pickers|
      ensures r.pickers[j].config == page.pickers[j].config
    {
      ShowHideValid(page.pickers[j]);
    }
  }

  /** Every event keeps the page valid and its shape. */
  lemma ApplyValid(page: Page, e: Event)
    requires Valid(page) && Applicable(page, e)
    ensures Valid(Apply(page, e)) && SameShape(page, Apply(page, e))
  {
    match e
    case InputClick(i) =>
      if page.pickers[i].isOpen { CloseValid(page, i); } else { OpenValid(page, i); }
    case InputKeyDown(i, key) =>
      if page.pickers[i].isOpen { CloseValid(page, i); } else { OpenValid(page, i); }
    case PopoverKeyDown(i, key, focused) =>
      CloseValid(page, i);
      ClickValid(page, i, key, focused);
    case CellClick(i, k) =>
      var (q, committed) := ClickCell(page.pickers[i], k);
      if committed { CommitValid(page, i, q); }
    case OptionClick(i, j) =>
      var (q, committed) := ClickOption(page.pickers[i], j);
      if committed { CommitValid(page, i, q); }
    case DocumentClick(inside) => OutsideValid(page, inside);
    case PrevClick(i) =>
    case NextClick(i) =>
    case OpenCall(i) => OpenValid(page, i);
    case CloseCall(i) => CloseValid(page, i);
    case ValidateCall(i) =>
    case DestroyCall(i) => ShowHideValid(page.pickers[i]);
  }

  /** The click that Enter performs inside a popover keeps the page valid. */
  lemma ClickValid(page: Page, i: int, key: Key, focused: Option<int>)
    requires Valid(page) && Has(page, i)
    ensures Valid(PopoverKey(page, i, key, focused).0) && SameShape(page, PopoverKey(page, i, key, focused).0)
  {
    var p := page.pickers[i];
    var r := PopoverKey(page, i, key, focused);
    if key == Escape {
      CloseValid(page, i);
    } else if r.1.Activate? {
      if p.config.IsDate() {
        var (q, committed) := ClickCell(p, r.1.target);
        if committed { CommitValid(page, i, q); }
      } else {
        var (q, committed) := ClickOption(p, r.1.target);
        if committed { CommitValid(page, i, q); }
      }
    }
  }

  /** The one event that can break the single-open rule: destroying an open picker. */
  predicate Safe(page: Page, e: Event) {
    !(e.DestroyCall? && Has(page, e.i) && page.pickers[e.i].isOpen)
  }

  lemma CloseSingle(page: Page, i: int)
    requires Has(page, i) && SingleOpen(page)
    ensures SingleOpen(Close(page, i))
  {
  }

  lemma OpenSingle(page: Page, i: int)
    requires Valid(page) && Has(page, i) && SingleOpen(page)
    ensures SingleOpen(Open(page, i))
  {
  }

  lemma CommitSingle(page: Page, i: int, q: Picker)
    requires Has(page, i) && SingleOpen(page) && q.isOpen == page.pickers[i].isOpen
    ensures SingleOpen(Close(Put(page, i, q), i))
  {
    CloseSingle(Put(page, i, q), i);
  }

  lemma PopoverSingle(page: Page, i: int, key: Key, focused: Option<int>)
    requires Valid(page) && Has(page, i) && SingleOpen(page)
    ensures SingleOpen(PopoverKey(page, i, key, focused).0)
  {
    var p := page.pickers[i];
    var r := PopoverKey(page, i, key, focused);
    if key == Escape {
      CloseSingle(page, i);
    } else if r.1.Activate? {
      if p.config.IsDate() {
        var (q, committed) := ClickCell(p, r.1.target);
        if committed { CommitSingle(page, i, q); }
      } else {
        var (q, committed) := ClickOption(p, r.1.target);
        if committed { CommitSingle(page, i, q); }
      }
    }
  }

  /** Every event but the destruction of an open picker keeps "every open picker is the
      active one", so at most one popover is open. */
  lemma ApplySingle(page: Page, e: Event)
    requires Valid(page) && Applicable(page, e) && SingleOpen(page) && Safe(page, e)
    ensures SingleOpen(Apply(page, e))
  {
    match e
    case InputClick(i) =>
      if page.pickers[i].isOpen { CloseSingle(page, i); } else { OpenSingle(page, i); }
    case InputKeyDown(i, key) =>
      if page.pickers[i].isOpen { CloseSingle(page, i); } else { OpenSingle(page, i); }
    case PopoverKeyDown(i, key, focused) => PopoverSingle(page, i, key, focused);
    case CellClick(i, k) =>
      var (q, committed) := ClickCell(page.pickers[i], k);
      if committed { CommitSingle(page, i, q); }
    case OptionClick(i, j) =>
      var (q, committed) := ClickOption(page.pickers[i], j);
      if committed { CommitSingle(page, i, q); }
    case DocumentClick(inside) =>
    case PrevClick(i) =>
    case NextClick(i) =>
    case OpenCall(i) => OpenSingle(page, i);
    case CloseCall(i) => CloseSingle(page, i);
    case ValidateCall(i) =>
    case DestroyCall(i) =>
  }

  /** Events apply to the page in order while each one fits the page it meets. */
  predicate Runs(page: Page, events: seq<Event>)
    requires Valid(page)
    decreases |events|
  {
    |events| == 0
    || (Applicable(page, events[0])
        && (ApplyValid(page, events[0]); Runs(Apply(page, events[0]), events[1..])))
  }

  /** The page after a run of events. */
  function Run(page: Page, events: seq<Event>): (r: Page)
    requires Valid(page) && Runs(page, events)
    ensures Valid(r) && SameShape(page, r)
    decreases |events|
  {
    if |events| == 0 then page
    else
      ApplyValid(page, events[0]);
      Run(Apply(page, events[0]), events[1..])
  }

  /** No event of the run destroys a picker while it is open. */
  predicate RunSafe(page: Page, events: seq<Event>)
    requires Valid(page) && Runs(page, events)
    decreases |events|
  {
    |events| == 0
    || (Safe(page, events[0])
        && (ApplyValid(page, events[0]); RunSafe(Apply(page, events[0]), events[1..])))
  }

  /** A page as the constructors leave it: nothing open, nothing active. */
  predicate Fresh(page: Page) {
    page.active.None? && forall j :: 0 <= j < |page.pickers| ==> !page.pickers[j].isOpen
  }

  /** From a fresh page, any run that destroys no open picker ends with at most one picker
      open, and that one is the active instance. */
  lemma {:induction false} RunSingle(page: Page, events: seq<Event>)
    requires Valid(page) && Runs(page, events) && RunSafe(page, events)
    requires SingleOpen(page)
    ensures SingleOpen(Run(page, events))
    decreases |events|
  {
    if |events| > 0 {
      ApplyValid(page, events[0]);
      ApplySingle(page, events[0]);
      RunSingle(Apply(page, events[0]), events[1..]);
    }
  }

  lemma FreshSingle(page: Page)
    requires Fresh(page)
    ensures SingleOpen(page)
  {
  }

  /** Destroying an open picker clears the reference but leaves the picker open, so opening
      another one afterwards leaves two pickers open. */
  lemma DestroyWhileOpen(p: Picker)
    requires p.Valid() && p.Renderable() && !p.isOpen
    ensures var page := Page([p, p], None);
            var events := [OpenCall(0), DestroyCall(0), OpenCall(1)];
            && Valid(page) && Fresh(page) && Runs(page, events) && !RunSafe(page, events)
            && Run(page, events).pickers[0].isOpen && Run(page, events).pickers[1].isOpen
  {
    var page := Page([p, p], None);
    assert Valid(page);
    var a := Apply(page, OpenCall(0));
    ApplyValid(page, OpenCall(0));
    var b := Apply(a, DestroyCall(0));
    ApplyValid(a, DestroyCall(0));
    var c := Apply(b, OpenCall(1));
    ApplyValid(b, OpenCall(1));
    var events := [OpenCall(0), DestroyCall(0), OpenCall(1)];
    assert events[1..] == [DestroyCall(0), OpenCall(1)];
    assert events[1..][1..] == [OpenCall(1)];
    assert [OpenCall(1)][1..] == [];
    assert Run(b, [OpenCall(1)]) == c;
    assert Run(a, [DestroyCall(0), OpenCall(1)]) == c;
    assert Run(page, events) == c;
  }
}

=== FILE: format.dfy ===
/** The picker's text helpers: two-digit padding, the date template and the 12-hour time label. */
module Format {
  import opened Wrappers
  import opened Seqs
  import opened Text
  import opened Calendar

  /** The date template used when none is configured. */
  const DefaultFormat: string := "MM/DD/YYYY"

  /** `n` written with at least two digits: numbers below ten get a leading "0". */
  function Pad(n: nat): (s: string)
    ensures AllDigits(s) && ParseNat(s) == n
    ensures 2 <= |s|
    ensures n < 100 ==> |s| == 2
  {
    ParseNatToString(n);
    if n < 10 then
      ParseNatLeadingZero(NatToString(n));
      "0" + NatToString(n)
    else
      if n < 100 then TwoDigitLength(n); NatToString(n)
      else NatToString(n)
  }

  /** The hour on a 12-hour clock face: `h % 12`, with 0 shown as 12. */
  function Hour12(h: nat): (r: nat)
    ensures 1 <= r <= 12
    ensures r % 12 == h % 12
  {
    if h % 12 == 0 then 12 else h % 12
  }

  predicate EndsWith(s: string, suffix: string) {
    |suffix| <= |s| && s[|s| - |suffix|..] == suffix
  }

  /** "PM" from noon on, "AM" before. */
  function Meridiem(hours: nat): string {
    if hours >= 12 then "PM" else "AM"
  }

  /** The label of a time of day, such as "9:05 AM" or "12:30 PM". */
  function FormatTime(hours: nat, minutes: nat): (s: string)
    ensures EndsWith(s, " PM") <==> hours >= 12
    ensures EndsWith(s, " AM") <==> hours < 12
  {
    var suffix := Meridiem(hours);
    var s := NatToString(Hour12(hours)) + ":" + Pad(minutes) + " " + suffix;
    assert s[|s| - 3..] == " " + suffix;
    assert " PM"[1] != " AM"[1];
    s
  }

  /** Every time of day can be read back from its label. */
  lemma FormatTimeRoundTrip(hours: nat, minutes: nat)
    requires hours < 24 && minutes < 60
    ensures ParseTime(FormatTime(hours, minutes)) == Some((hours, minutes))
  {
    LabelRoundTrip(hours, minutes);
  }

  /** Cuts a label at its ':' into hour text, two characters of minutes and the suffix
      after the space. */
  function SplitTime(s: string): Option<(string, string, string)> {
    var i := IndexOf(s, ':');
    if i < 0 then None
    else
      var rest := s[i + 1..];
      if |rest| != 5 || rest[2] != ' ' then None else Some((s[..i], rest[..2], rest[3..]))
  }

  /** Hours 0..23 and minutes 0..59 read from the parts of a label. */
  function TimeOfParts(hourText: string, minuteText: string, suffix: string): Option<(nat, nat)> {
    if |hourText| == 0 || !AllDigits(hourText) || !AllDigits(minuteText) then None
    else
      var hour := ParseNat(hourText);
      var minute := ParseNat(minuteText);
      if hour < 1 || 12 < hour || 60 <= minute then None
      else if suffix == "AM" then Some((hour % 12, minute))
      else if suffix == "PM" then Some((hour % 12 + 12, minute))
      else None
  }

  /** Reads a label of the form `H:MM AM` or `H:MM PM` back into hours 0..23 and minutes 0..59. */
  function ParseTime(s: string): Option<(nat, nat)> {
    match SplitTime(s)
    case None => None
    case Some((h, m, suffix)) => TimeOfParts(h, m, suffix)
  }

  lemma SplitLabel(hourText: string, minuteText: string, suffix: string)
    requires AllDigits(hourText) && |minuteText| == 2 && |suffix| == 2
    ensures SplitTime(hourText + ":" + minuteText + " " + suffix) == Some((hourText, minuteText, suffix))
  {
    var tail := minuteText + " " + suffix;
    var s := hourText + ":" + minuteText + " " + suffix;
    assert s == hourText + [':'] + tail;
    DigitsAvoid(hourText, ':');
    IndexOfAfter(hourText, ':', tail);
    assert s[..|hourText|] == hourText;
    assert s[|hourText| + 1..] == tail;
    assert tail[..2] == minuteText;
    assert tail[3..] == suffix;
  }

  lemma LabelRoundTrip(hours: nat, minutes: nat)
    requires hours < 24 && minutes < 60
    ensures ParseTime(NatToString(Hour12(hours)) + ":" + Pad(minutes) + " " + Meridiem(hours)) == Some((hours, minutes))
  {
    var h := NatToString(Hour12(hours));
    SplitLabel(h, Pad(minutes), Meridiem(hours));
    ParseNatToString(Hour12(hours));
    assert TimeOfParts(h, Pad(minutes), Meridiem(hours)) == Some((hours, minutes));
  }

  /** Different times of day get different labels. */
  lemma FormatTimeInjective(h1: nat, m1: nat, h2: nat, m2: nat)
    requires h1 < 24 && m1 < 60 && h2 < 24 && m2 < 60
    ensures FormatTime(h1, m1) == FormatTime(h2, m2) <==> h1 == h2 && m1 == m2
  {
    FormatTimeRoundTrip(h1, m1);
    FormatTimeRoundTrip(h2, m2);
  }

  /** Fills the template: the first "MM" becomes the two-digit month (1..12), then the first
      "DD" the two-digit day, then the first "YYYY" the year, each replacement searching the
      text left by the one before. */
  function FormatDate(date: Date, fmt: string): (r: string)
    requires date.Valid()
    ensures fmt == DefaultFormat ==>
              r == Pad(date.month + 1) + "/" + Pad(date.day) + "/" + IntToString(date.year)
    ensures fmt == DefaultFormat ==> ParseDefaultDate(r) == Some(date)
    ensures (forall j :: 0 <= j <= |fmt| ==> !OccursAt(fmt, "MM", j) && !OccursAt(fmt, "DD", j) && !OccursAt(fmt, "YYYY", j))
            ==> r == fmt
  {
    var pm, pd, y := Pad(date.month + 1), Pad(date.day), IntToString(date.year);
    FillDefaultTemplate(pm, pd, y);
    DefaultRoundTrip(date);
    FillTemplate(fmt, pm, pd, y)
  }

  /** The three replacements in the order the template is filled. */
  function FillTemplate(fmt: string, month: string, day: string, year: string): string {
    ReplaceFirst(ReplaceFirst(ReplaceFirst(fmt, "MM", month), "DD", day), "YYYY", year)
  }

  lemma FillMonth(pm: string)
    requires AllDigits(pm)
    ensures ReplaceFirst(DefaultFormat, "MM", pm) == (pm + "/") + "DD/YYYY"
  {
    ReplaceAtStart(DefaultFormat, "MM", pm);
    assert DefaultFormat[2..] == "/" + "DD/YYYY";
  }

  lemma FillDay(pm: string, pd: string)
    requires AllDigits(pm) && AllDigits(pd)
    ensures ReplaceFirst((pm + "/") + "DD/YYYY", "DD", pd) == (pm + "/" + pd + "/") + "YYYY"
  {
    DigitsAvoid(pm, 'D');
    AvoidsConcat(pm, "/", 'D');
    ReplaceAfterPrefix(pm + "/", "DD", "DD/YYYY", pd);
    assert "DD/YYYY"[2..] == "/" + "YYYY";
  }

  lemma FillYear(pm: string, pd: string, y: string)
    requires AllDigits(pm) && AllDigits(pd)
    ensures ReplaceFirst((pm + "/" + pd + "/") + "YYYY", "YYYY", y) == pm + "/" + pd + "/" + y
  {
    DigitsAvoid(pm, 'Y');
    DigitsAvoid(pd, 'Y');
    AvoidsConcat(pm, "/", 'Y');
    AvoidsConcat(pm + "/", pd, 'Y');
    AvoidsConcat(pm + "/" + pd, "/", 'Y');
    ReplaceAfterPrefix(pm + "/" + pd + "/", "YYYY", "YYYY", y);
  }

  /** Filling the default template with digit strings for month and day. */
  lemma FillDefaultTemplate(pm: string, pd: string, y: string)
    requires AllDigits(pm) && AllDigits(pd)
    ensures FillTemplate(DefaultFormat, pm, pd, y) == pm + "/" + pd + "/" + y
  {
    FillMonth(pm);
    FillDay(pm, pd);
    FillYear(pm, pd, y);
  }

  /** Cuts text at its first two '/' separators. */
  function SplitDate(s: string): Option<(string, string, string)> {
    var i := IndexOf(s, '/');
    if i < 0 then None
    else
      var rest := s[i + 1..];
      var j := IndexOf(rest, '/');
      if j < 0 then None else Some((s[..i], rest[..j], rest[j + 1..]))
  }

  /** Month, day and year read from their texts; the month text counts from 1. */
  function DateOfParts(monthText: string, dayText: string, yearText: string): Option<Date> {
    if |monthText| == 0 || |dayText| == 0 || !AllDigits(monthText) || !AllDigits(dayText) then None
    else
      match ParseInt(yearText)
      case None => None
      case Some(year) => Some(Date(year, ParseNat(monthText) - 1, ParseNat(dayText)))
  }

  /** Reads text of the form month/day/year (as the default template writes it) back into a date. */
  function ParseDefaultDate(s: string): Option<Date> {
    match SplitDate(s)
    case None => None
    case Some((m, d, y)) => DateOfParts(m, d, y)
  }

  /** The first separator of `a + "/" + b` is the one after the digits `a`. */
  lemma SplitAtSlash(a: string, b: string)
    requires AllDigits(a)
    ensures IndexOf(a + "/" + b, '/') == |a|
    ensures (a + "/" + b)[..|a|] == a && (a + "/" + b)[|a| + 1..] == b
  {
    assert a + "/" + b == a + ['/'] + b;
    DigitsAvoid(a, '/');
    IndexOfAfter(a, '/', b);
  }

  /** Month/day/year text splits back into its three parts. */
  lemma SplitDefault(pm: string, pd: string, ys: string)
    requires AllDigits(pm) && AllDigits(pd)
    ensures SplitDate(pm + "/" + pd + "/" + ys) == Some((pm, pd, ys))
  {
    var rest := pd + "/" + ys;
    assert pm + "/" + pd + "/" + ys == pm + "/" + rest;
    SplitAtSlash(pm, rest);
    SplitAtSlash(pd, ys);
  }

  /** Month/day/year text with the default template's pieces reads back as the date. */
  lemma DefaultRoundTrip(date: Date)
    requires date.Valid()
    ensures ParseDefaultDate(Pad(date.month + 1) + "/" + Pad(date.day) + "/" + IntToString(date.year)) == Some(date)
  {
    var pm, pd, ys := Pad(date.month + 1), Pad(date.day), IntToString(date.year);
    SplitDefault(pm, pd, ys);
    ParseIntToString(date.year);
    assert DateOfParts(pm, pd, ys) == Some(date);
  }
}

=== FILE: grid.dfy ===
/** The calendar grid of the date picker: blank cells up to the weekday of the first of
    the month, then one button per day, each possibly disabled by the minimum and maximum
    dates, with the title above it. */
module Grid {
  import opened Wrappers
  import opened Seqs
  import opened Text
  import opened Calendar

  /** One cell of the grid: a blank before day 1, or the button of a day. */
  datatype Cell = Blank | Day(day: int, disabled: bool)

  const MonthNames: seq<string> := ["January", "February", "March", "April", "May", "June",
    "July", "August", "September", "October", "November", "December"]

  /** Weekday (0 = Sunday) of the first of the month on display. */
  function FirstWeekday(v: MonthView): (w: int)
    requires v.Valid()
    ensures 0 <= w < 7
  {
    Weekday(Date(v.year, v.month, 1))
  }

  /** The day cell rule: a day is disabled when it comes before the minimum date or after
      the maximum date; an absent bound excludes nothing. Days are compared in calendar
      order, which `DisabledByComparison` shows to be the order of `Date` objects. */
  predicate Disabled(date: Date, minDate: Option<Date>, maxDate: Option<Date>) {
    (minDate.Some? && LexBefore(date, minDate.value)) || (maxDate.Some? && LexBefore(maxDate.value, date))
  }

  /** The title over the grid, such as "January 2025". It names the view unambiguously. */
  function Title(v: MonthView): (s: string)
    requires v.Valid()
    ensures ParseTitle(s) == Some(v)
  {
    MonthNameAvoidsSpace(v.month);
    SplitAtSpace(MonthNames[v.month], IntToString(v.year));
    MonthNamesDistinct(v.month);
    IndexOfFirst(MonthNames, v.month);
    ParseIntToString(v.year);
    MonthNames[v.month] + " " + IntToString(v.year)
  }

  /** Reads a title back into the view it names. */
  function ParseTitle(s: string): Option<MonthView> {
    var i := IndexOf(s, ' ');
    if i < 0 then None
    else
      var m := IndexOf(MonthNames, s[..i]);
      if m < 0 then None
      else
        match ParseInt(s[i + 1..])
        case None => None
        case Some(y) => Some(MonthView(y, m))
  }

  lemma SplitAtSpace(name: string, rest: string)
    requires Avoids(name, ' ')
    ensures IndexOf(name + " " + rest, ' ') == |name|
    ensures (name + " " + rest)[..|name|] == name && (name + " " + rest)[|name| + 1..] == rest
  {
    IndexOfAfter(name, ' ', rest);
  }

  lemma MonthNameAvoidsSpace(m: int)
    requires 0 <= m < 12
    ensures Avoids(MonthNames[m], ' ')
  {
  }

  lemma MonthNamesDistinct(m: int)
    requires 0 <= m < 12
    ensures forall j :: 0 <= j < m ==> MonthNames[j] != MonthNames[m]
  {
  }

  /** The button of day `d` of the month on display. */
  function DayCell(v: MonthView, minDate: Option<Date>, maxDate: Option<Date>, d: int): Cell {
    Day(d, Disabled(Date(v.year, v.month, d), minDate, maxDate))
  }

  /** Day cells for days `d` through the end of the month. */
  function DayCells(v: MonthView, minDate: Option<Date>, maxDate: Option<Date>, d: int): (cells: seq<Cell>)
    requires v.Valid() && 1 <= d <= DaysInMonth(v.year, v.month) + 1
    ensures |cells| == DaysInMonth(v.year, v.month) + 1 - d
    ensures forall k :: 0 <= k < |cells| ==> cells[k] == DayCell(v, minDate, maxDate, d + k)
    decreases DaysInMonth(v.year, v.month) + 1 - d
  {
    if d > DaysInMonth(v.year, v.month) then []
    else [DayCell(v, minDate, maxDate, d)] + DayCells(v, minDate, maxDate, d + 1)
  }

  /** The grid of a month: as many blanks as the weekday of day 1, then days 1..N. */
  function Layout(v: MonthView, minDate: Option<Date>, maxDate: Option<Date>): (cells: seq<Cell>)
    requires v.Valid()
    ensures |cells| == FirstWeekday(v) + DaysInMonth(v.year, v.month)
    ensures forall i :: 0 <= i < FirstWeekday(v) ==> cells[i] == Blank
    ensures forall d {:trigger DayCell(v, minDate, maxDate, d)} :: 1 <= d <= DaysInMonth(v.year, v.month) ==>
              cells[FirstWeekday(v) + d - 1] == DayCell(v, minDate, maxDate, d)
  {
    var blanks := seq(FirstWeekday(v), _ => Blank);
    var days := DayCells(v, minDate, maxDate, 1);
    forall d | 1 <= d <= DaysInMonth(v.year, v.month)
      ensures (blanks + days)[FirstWeekday(v) + d - 1] == DayCell(v, minDate, maxDate, d)
    {
      assert days[d - 1] == DayCell(v, minDate, maxDate, d);
    }
    blanks + days
  }

  /** The renderer: blanks for the weekdays before day 1, then a button per day of the
      month. It builds exactly `Layout`. */
  method RenderDays(v: MonthView, minDate: Option<Date>, maxDate: Option<Date>) returns (cells: seq<Cell>)
    requires v.Valid()
    ensures cells == Layout(v, minDate, maxDate)
  {
    cells := RenderBlanks(v, minDate, maxDate);
    cells := RenderDayButtons(v, minDate, maxDate, cells);
  }

  /** The loop over the empty cells before the first of the month. */
  method RenderBlanks(v: MonthView, minDate: Option<Date>, maxDate: Option<Date>) returns (cells: seq<Cell>)
    requires v.Valid()
    ensures cells == Layout(v, minDate, maxDate)[..FirstWeekday(v)]
  {
    var firstDay := FirstWeekday(v);
    ghost var layout := Layout(v, minDate, maxDate);
    cells := [];
    var e := 0;
    while e < firstDay
      invariant 0 <= e <= firstDay
      invariant cells == layout[..e]
    {
      PrefixExtend(layout, e);
      cells := cells + [Blank];
      e := e + 1;
    }
  }

  /** The loop over the days 1..N, appending one button per day to the blanks. */
  method RenderDayButtons(v: MonthView, minDate: Option<Date>, maxDate: Option<Date>, blanks: seq<Cell>) returns (cells: seq<Cell>)
    requires v.Valid()
    requires blanks == Layout(v, minDate, maxDate)[..FirstWeekday(v)]
    ensures cells == Layout(v, minDate, maxDate)
  {
    var daysInMonth := DaysInMonth(v.year, v.month);
    cells := blanks;
    var d := 1;
    while d <= daysInMonth
      invariant 1 <= d <= daysInMonth + 1
      invariant DaysBefore(cells, v, minDate, maxDate, d)
    {
      var disabled := false;
      if minDate.Some? && LexBefore(Date(v.year, v.month, d), minDate.value) {
        disabled := true;
      }
      if maxDate.Some? && LexBefore(maxDate.value, Date(v.year, v.month, d)) {
        disabled := true;
      }
      RenderedNextDay(cells, v, minDate, maxDate, d, disabled);
      cells := cells + [Day(d, disabled)];
      d := d + 1;
    }
    RenderedAllDays(cells, v, minDate, maxDate);
  }

  /** `cells` are the grid up to, not including, day `d`. */
  predicate DaysBefore(cells: seq<Cell>, v: MonthView, minDate: Option<Date>, maxDate: Option<Date>, d: int)
    requires v.Valid() && 1 <= d <= DaysInMonth(v.year, v.month) + 1
  {
    cells == Layout(v, minDate, maxDate)[..FirstWeekday(v) + d - 1]
  }

  /** Appending the button of day `d` extends the rendered grid by one cell. */
  lemma RenderedNextDay(cells: seq<Cell>, v: MonthView, minDate: Option<Date>, maxDate: Option<Date>, d: int, disabled: bool)
    requires v.Valid() && 1 <= d <= DaysInMonth(v.year, v.month)
    requires DaysBefore(cells, v, minDate, maxDate, d)
    requires disabled == Disabled(Date(v.year, v.month, d), minDate, maxDate)
    ensures DaysBefore(cells + [Day(d, disabled)], v, minDate, maxDate, d + 1)
  {
    var layout := Layout(v, minDate, maxDate);
    var k := FirstWeekday(v) + d - 1;
    assert layout[k] == DayCell(v, minDate, maxDate, d);
    PrefixExtend(layout, k);
  }

  /** After the last day the whole grid is rendered. */
  lemma RenderedAllDays(cells: seq<Cell>, v: MonthView, minDate: Option<Date>, maxDate: Option<Date>)
    requires v.Valid()
    requires DaysBefore(cells, v, minDate, maxDate, DaysInMonth(v.year, v.month) + 1)
    ensures cells == Layout(v, minDate, maxDate)
  {
    var layout := Layout(v, minDate, maxDate);
    assert layout[..|layout|] == layout;
  }

  /** In a seven-column grid filled row by row, day `d` sits in the column of its weekday. */
  lemma DayColumn(v: MonthView, d: int)
    requires v.Valid() && 1 <= d <= DaysInMonth(v.year, v.month)
    ensures (FirstWeekday(v) + d - 1) % 7 == Weekday(Date(v.year, v.month, d))
  {
    var first := DayNumber(Date(v.year, v.month, 1));
    DaysLater(Date(v.year, v.month, 1), d - 1);
    assert DayNumber(Date(v.year, v.month, d)) == first + (d - 1);
    WeekShift(first + 1, d - 1);
    assert FirstWeekday(v) == (first + 1) % 7;
  }

  /** For days that exist and bounds that exist, the disabled rule is the comparison of
      `Date` objects with `<` and `>` the renderer performs. */
  lemma DisabledByComparison(date: Date, minDate: Option<Date>, maxDate: Option<Date>)
    requires date.Valid()
    requires minDate.Some? ==> minDate.value.Valid()
    requires maxDate.Some? ==> maxDate.value.Valid()
    ensures Disabled(date, minDate, maxDate) <==>
              (minDate.Some? && Before(date, minDate.value)) || (maxDate.Some? && Before(maxDate.value, date))
  {
    if minDate.Some? {
      BeforeIsLexicographic(date, minDate.value);
    }
    if maxDate.Some? {
      BeforeIsLexicographic(maxDate.value, date);
    }
  }

  /** The "selected" mark of a cell: a day button whose date is the selected date. */
  predicate MarkedSelected(v: MonthView, cell: Cell, selected: Option<Date>) {
    cell.Day? && selected.Some? && IsSameDay(Date(v.year, v.month, cell.day), selected.value)
  }

  /** The "today" mark of a cell: a day button whose date is today. */
  predicate MarkedToday(v: MonthView, cell: Cell, today: Date) {
    cell.Day? && IsSameDay(Date(v.year, v.month, cell.day), today)
  }

  /** The selected mark falls on exactly one cell, the one of the selected day, when that day
      lies in the month on display, and on no cell otherwise. */
  lemma SelectedMarkPlacement(v: MonthView, minDate: Option<Date>, maxDate: Option<Date>, selected: Option<Date>, i: int)
    requires v.Valid() && 0 <= i < |Layout(v, minDate, maxDate)|
    requires selected.Some? ==> selected.value.Valid()
    ensures MarkedSelected(v, Layout(v, minDate, maxDate)[i], selected) <==>
              selected.Some? && selected.value.year == v.year && selected.value.month == v.month
              && i == FirstWeekday(v) + selected.value.day - 1
  {
    var cells := Layout(v, minDate, maxDate);
    if i >= FirstWeekday(v) {
      var d := i - FirstWeekday(v) + 1;
      assert cells[FirstWeekday(v) + d - 1] == DayCell(v, minDate, maxDate, d);
    }
  }

  /** Likewise the today mark falls on the cell of today exactly when today lies in the month
      on display. */
  lemma TodayMarkPlacement(v: MonthView, minDate: Option<Date>, maxDate: Option<Date>, today: Date, i: int)
    requires v.Valid() && 0 <= i < |Layout(v, minDate, maxDate)| && today.Valid()
    ensures MarkedToday(v, Layout(v, minDate, maxDate)[i], today) <==>
              today.year == v.year && today.month == v.month && i == FirstWeekday(v) + today.day - 1
  {
    SelectedMarkPlacement(v, minDate, maxDate, Some(today), i);
  }

  /** The day a click on cell `k` commits: only a day button that is not disabled counts;
      blanks, disabled days and positions outside the grid give nothing. */
  function EnabledDayAt(cells: seq<Cell>, k: int): (d: Option<int>)
    ensures d.Some? <==> 0 <= k < |cells| && cells[k].Day? && !cells[k].disabled
    ensures d.Some? ==> cells[k] == Day(d.value, false)
  {
    if 0 <= k < |cells| && cells[k].Day? && !cells[k].disabled then Some(cells[k].day) else None
  }

  predicate Enabled(cells: seq<Cell>, k: int) {
    0 <= k < |cells| && cells[k].Day? && !cells[k].disabled
  }

  /** Positions at or after `from` of the enabled day buttons, in grid order: the list the
      arrow keys move through. */
  function NavigableFrom(cells: seq<Cell>, from: nat): (nav: seq<int>)
    requires from <= |cells|
    ensures forall j :: 0 <= j < |nav| ==> from <= nav[j] && Enabled(cells, nav[j])
    ensures forall k :: from <= k < |cells| && Enabled(cells, k) ==> k in nav
    ensures forall j1, j2 :: 0 <= j1 < j2 < |nav| ==> nav[j1] < nav[j2]
    decreases |cells| - from
  {
    if from == |cells| then []
    else if Enabled(cells, from) then [from] + NavigableFrom(cells, from + 1)
    else NavigableFrom(cells, from + 1)
  }

  function Navigable(cells: seq<Cell>): (nav: seq<int>)
    ensures forall j :: 0 <= j < |nav| ==> Enabled(cells, nav[j])
    ensures forall k :: Enabled(cells, k) ==> k in nav
    ensures forall j1, j2 :: 0 <= j1 < j2 < |nav| ==> nav[j1] < nav[j2]
  {
    NavigableFrom(cells, 0)
  }

  /** With a minimum date inside the month on display, exactly the days before it are
      disabled (absent a maximum date). */
  lemma MinDateInMonth(v: MonthView, minDay: int, d: int)
    requires v.Valid() && 1 <= minDay <= DaysInMonth(v.year, v.month)
    requires 1 <= d <= DaysInMonth(v.year, v.month)
    ensures Layout(v, Some(Date(v.year, v.month, minDay)), None)[FirstWeekday(v) + d - 1] == Day(d, d < minDay)
  {
    assert DayCell(v, Some(Date(v.year, v.month, minDay)), None, d) == Layout(v, Some(Date(v.year, v.month, minDay)), None)[FirstWeekday(v) + d - 1];
    BeforeIsLexicographic(Date(v.year, v.month, d), Date(v.year, v.month, minDay));
  }

  /** January 2025 starts on a Wednesday, so its grid opens with three blanks. */
  lemma JanuaryExample()
    ensures FirstWeekday(MonthView(2025, 0)) == 3
  {
    WeekdayAnchors();
  }
}

=== FILE: keyboard.dfy ===
/** Arrow-key navigation inside the popover: the focused element moves along the list of
    navigable elements (enabled day buttons, or time options), clamped at both ends. */
module Keyboard {
  import opened Wrappers
  import opened Seqs

  /** The keys the handlers distinguish; every other key is `OtherKey`. */
  datatype Key = ArrowRight | ArrowLeft | ArrowDown | ArrowUp | Enter | Space | Escape | OtherKey

  /** What a key press does to the focused element. */
  datatype KeyEffect<T> =
    | Ignore              // focus stays where it is
    | Focus(target: T)    // focus moves to `target`
    | Activate(target: T) // the focused element is clicked

  /** `x` confined to `lo..hi`. */
  function Clamp(x: int, lo: int, hi: int): int
    requires lo <= hi
  {
    if x < lo then lo else if x > hi then hi else x
  }

  /** The index reached from `idx` by `delta`: a forward move is capped at the last index,
      a backward move at the first, each with a one-sided bound as the handlers write it. */
  function Step(idx: int, delta: int, len: int): (r: int)
    requires 0 <= idx < len
    ensures 0 <= r < len
    ensures r == Clamp(idx + delta, 0, len - 1)
  {
    if delta >= 0 then
      if idx + delta < len - 1 then idx + delta else len - 1
    else
      if idx + delta > 0 then idx + delta else 0
  }

  /** The index offset of a key in the month grid: one day sideways, one week up or down. */
  function CalendarDelta(key: Key): Option<int> {
    match key
    case ArrowRight => Some(1)
    case ArrowLeft => Some(-1)
    case ArrowDown => Some(7)
    case ArrowUp => Some(-7)
    case _ => None
  }

  /** The index offset of a key in the time list: one option up or down. */
  function TimeDelta(key: Key): Option<int> {
    match key
    case ArrowDown => Some(1)
    case ArrowUp => Some(-1)
    case _ => None
  }

  /** The shared shape of both handlers. Nothing happens unless an element is focused and
      it is one of `items`; Enter clicks it; a key with an offset moves focus to the clamped
      index, unless that is the index already focused; any other key does nothing. */
  function HandleKey<T(==)>(items: seq<T>, focused: Option<T>, key: Key, delta: Option<int>): (r: KeyEffect<T>)
    ensures focused.None? || focused.value !in items ==> r == Ignore
    ensures r.Activate? <==> key == Enter && focused.Some? && focused.value in items
    ensures r.Activate? ==> r.target == focused.value
    ensures r.Focus? ==> key != Enter && delta.Some? && focused.Some? && focused.value in items
    ensures r.Focus? ==> r.target == items[Step(IndexOf(items, focused.value), delta.value, |items|)]
    ensures r.Focus? ==> Step(IndexOf(items, focused.value), delta.value, |items|) != IndexOf(items, focused.value)
    ensures key != Enter && delta.None? ==> r == Ignore
    ensures key != Enter && delta.Some? && focused.Some? && focused.value in items ==>
              var idx := IndexOf(items, focused.value);
              var next := Step(idx, delta.value, |items|);
              r == if next != idx then Focus(items[next]) else Ignore
  {
    if focused.None? then Ignore
    else
      var idx := IndexOf(items, focused.value);
      if idx == -1 then Ignore
      else if key == Enter then Activate(focused.value)
      else if delta.None? then Ignore
      else
        var next := Step(idx, delta.value, |items|);
        if next != idx then Focus(items[next]) else Ignore
  }

  /** Keyboard handling in the month grid: only the four arrows and Enter do anything; Enter
      clicks the focused day, an arrow focuses the day one or seven places away, clamped. */
  function CalendarKey<T(==)>(days: seq<T>, focused: Option<T>, key: Key): (r: KeyEffect<T>)
    ensures key !in {ArrowRight, ArrowLeft, ArrowDown, ArrowUp, Enter} ==> r == Ignore
    ensures r.Activate? <==> key == Enter && focused.Some? && focused.value in days
    ensures r.Focus? ==> focused.Some? && focused.value in days && CalendarDelta(key).Some?
                         && r.target == days[Clamp(IndexOf(days, focused.value) + CalendarDelta(key).value, 0, |days| - 1)]
    ensures key != Enter && focused.Some? && focused.value in days && CalendarDelta(key).Some? ==>
              var i := IndexOf(days, focused.value);
              var n := Clamp(i + CalendarDelta(key).value, 0, |days| - 1);
              r == if n != i then Focus(days[n]) else Ignore
  {
    HandleKey(days, focused, key, CalendarDelta(key))
  }

  /** Keyboard handling in the time list: only Down, Up and Enter do anything; Enter clicks
      the focused option, Down and Up focus the next or previous one, clamped. */
  function TimeKey<T(==)>(options: seq<T>, focused: Option<T>, key: Key): (r: KeyEffect<T>)
    ensures key !in {ArrowDown, ArrowUp, Enter} ==> r == Ignore
    ensures r.Activate? <==> key == Enter && focused.Some? && focused.value in options
    ensures r.Focus? ==> focused.Some? && focused.value in options && TimeDelta(key).Some?
                         && r.target == options[Clamp(IndexOf(options, focused.value) + TimeDelta(key).value, 0, |options| - 1)]
    ensures key != Enter && focused.Some? && focused.value in options && TimeDelta(key).Some? ==>
              var i := IndexOf(options, focused.value);
              var n := Clamp(i + TimeDelta(key).value, 0, |options| - 1);
              r == if n != i then Focus(options[n]) else Ignore
  {
    HandleKey(options, focused, key, TimeDelta(key))
  }

  /** In the month grid Right/Left move one day and Down/Up one week, clamped to the
      navigable days; a move that would stay put leaves focus alone. With distinct days the
      new index is exactly the clamped one. */
  lemma CalendarArrows<T>(days: seq<T>, k: int, key: Key)
    requires 0 <= k < |days|
    requires forall i, j :: 0 <= i < j < |days| ==> days[i] != days[j]
    requires key in {ArrowRight, ArrowLeft, ArrowDown, ArrowUp}
    ensures var delta := if key == ArrowRight then 1 else if key == ArrowLeft then -1
                         else if key == ArrowDown then 7 else -7;
            var n := Clamp(k + delta, 0, |days| - 1);
            CalendarKey(days, Some(days[k]), key) == if n == k then Ignore else Focus(days[n])
  {
    IndexOfFirst(days, k);
  }

  /** In the time list Down/Up move one option, clamped to the list; Right and Left, like
      every key but Enter, do nothing there. */
  lemma TimeArrows<T>(options: seq<T>, k: int, key: Key)
    requires 0 <= k < |options|
    requires forall i, j :: 0 <= i < j < |options| ==> options[i] != options[j]
    ensures key == ArrowDown ==>
              TimeKey(options, Some(options[k]), key) ==
                if k + 1 < |options| then Focus(options[k + 1]) else Ignore
    ensures key == ArrowUp ==>
              TimeKey(options, Some(options[k]), key) == if k > 0 then Focus(options[k - 1]) else Ignore
    ensures key != ArrowDown && key != ArrowUp && key != Enter ==>
              TimeKey(options, Some(options[k]), key) == Ignore
  {
    IndexOfFirst(options, k);
  }
}

=== FILE: navscroll.dfy ===
/** Scroll-spy for the navigation bar: of the sections the observer reports as intersecting,
    the one whose top edge is highest on screen becomes the current one; its hash is written
    to the address bar and its navigation links are marked active. */
module NavScroll {
  import opened Wrappers

  /** One observer entry: the section's id, whether it intersects, and its top edge. */
  datatype Entry = Entry(id: string, intersecting: bool, top: real)

  /** The intersecting entries, in the order reported. */
  function Intersecting(entries: seq<Entry>): (vis: seq<Entry>)
    ensures |vis| <= |entries|
    ensures forall e :: e in vis <==> e in entries && e.intersecting
  {
    if |entries| == 0 then []
    else if entries[0].intersecting then [entries[0]] + Intersecting(entries[1..])
    else Intersecting(entries[1..])
  }

  /** Filtering keeps order and multiplicity: it distributes over concatenation, so each entry
      keeps its place relative to the others. */
  lemma {:induction false} IntersectingAppend(a: seq<Entry>, b: seq<Entry>)
    ensures Intersecting(a + b) == Intersecting(a) + Intersecting(b)
    decreases |a|
  {
    if |a| == 0 {
      assert a + b == b;
    } else {
      assert (a + b)[0] == a[0];
      assert (a + b)[1..] == a[1..] + b;
      IntersectingAppend(a[1..], b);
    }
  }

  /** The predicate both lists share: `x` sits at `n`, and every entry before it that
      intersects lies strictly lower. */
  predicate EarliestLeast(s: seq<Entry>, n: int, x: Entry) {
    0 <= n < |s| && s[n] == x && forall j :: 0 <= j < n && s[j].intersecting ==> s[j].top > x.top
  }

  /** One step of filtering, by how the first entry fares. */
  lemma IntersectingCons(entries: seq<Entry>)
    requires |entries| > 0
    ensures Intersecting(entries) ==
            if entries[0].intersecting then [entries[0]] + Intersecting(entries[1..]) else Intersecting(entries[1..])
  {
  }

  /** Shifting the witness past a first entry: it stays the earliest if that entry is not lower. */
  lemma EarliestShift(entries: seq<Entry>, n: int, x: Entry)
    requires |entries| > 0 && EarliestLeast(entries[1..], n, x)
    requires entries[0].intersecting ==> entries[0].top > x.top
    ensures EarliestLeast(entries, n + 1, x)
  {
    forall j | 0 <= j < n + 1 && entries[j].intersecting
      ensures entries[j].top > x.top
    {
      if j > 0 {
        assert entries[j] == entries[1..][j - 1];
      }
    }
  }

  /** An entry that comes first among the least-top ones of the filtered list does so in the
      original list too, counting only the intersecting entries before it. */
  lemma {:induction false} EarliestInEntries(entries: seq<Entry>, k: int, x: Entry)
    requires 0 <= k < |Intersecting(entries)| && Intersecting(entries)[k] == x
    requires forall j :: 0 <= j < k ==> Intersecting(entries)[j].top > x.top
    ensures exists n :: EarliestLeast(entries, n, x) && entries[n].intersecting
    decreases |entries|
  {
    var vis := Intersecting(entries);
    var vt := Intersecting(entries[1..]);
    IntersectingCons(entries);
    if entries[0].intersecting && k == 0 {
      assert EarliestLeast(entries, 0, x);
    } else {
      var k' := if entries[0].intersecting then k - 1 else k;
      forall j | 0 <= j < k'
        ensures vt[j].top > x.top
      {
        assert vt[j] == vis[if entries[0].intersecting then j + 1 else j];
      }
      assert vt[k'] == x;
      assert entries[0].intersecting ==> entries[0] == vis[0];
      EarliestInEntries(entries[1..], k', x);
      var n :| EarliestLeast(entries[1..], n, x) && entries[1..][n].intersecting;
      EarliestShift(entries, n, x);
      assert entries[n + 1].intersecting;
    }
  }

  /** The reduction over the intersecting entries: a later entry replaces the best so far only
      when its top is strictly smaller. The result has the least top, and it is the earliest
      entry with that top. */
  function Reduce(best: Entry, rest: seq<Entry>): (r: Entry)
    ensures r.top <= best.top
    ensures forall j :: 0 <= j < |rest| ==> r.top <= rest[j].top
    ensures r == best || exists k :: 0 <= k < |rest| && r == rest[k] && r.top < best.top
                                     && forall j :: 0 <= j < k ==> rest[j].top > r.top
    decreases |rest|
  {
    if |rest| == 0 then best
    else
      var next := if rest[0].top < best.top then rest[0] else best;
      var r := Reduce(next, rest[1..]);
      ReduceWitness(best, rest, next, r);
      r
  }

  /** The step of `Reduce`'s proof that finds the position of the winner in `rest`. */
  lemma ReduceWitness(best: Entry, rest: seq<Entry>, next: Entry, r: Entry)
    requires |rest| > 0
    requires next == if rest[0].top < best.top then rest[0] else best
    requires r.top <= next.top
    requires r == next || exists k :: 0 <= k < |rest[1..]| && r == rest[1..][k] && r.top < next.top
                                      && forall j :: 0 <= j < k ==> rest[1..][j].top > r.top
    ensures r == best || exists k :: 0 <= k < |rest| && r == rest[k] && r.top < best.top
                                     && forall j :: 0 <= j < k ==> rest[j].top > r.top
  {
    if r != best {
      if r == next {
        assert r == rest[0];
      } else {
        var k :| 0 <= k < |rest[1..]| && r == rest[1..][k] && r.top < next.top
                 && forall j :: 0 <= j < k ==> rest[1..][j].top > r.top;
        assert r == rest[k + 1];
        forall j | 0 <= j < k + 1
          ensures rest[j].top > r.top
        {
          if j > 0 {
            assert rest[j] == rest[1..][j - 1];
          }
        }
      }
    }
  }

  /** `Reduce` seeded with the first entry, over a whole list: the result is the list's first
      entry with the least top. */
  lemma ReduceOver(vis: seq<Entry>)
    requires |vis| > 0
    ensures var r := Reduce(vis[0], vis[1..]);
            && (forall e :: e in vis ==> r.top <= e.top)
            && exists k :: 0 <= k < |vis| && vis[k] == r && forall j :: 0 <= j < k ==> vis[j].top > r.top
  {
    var r := Reduce(vis[0], vis[1..]);
    if r == vis[0] {
      assert vis[0] == r;
    } else {
      var k :| 0 <= k < |vis[1..]| && r == vis[1..][k] && r.top < vis[0].top
               && forall j :: 0 <= j < k ==> vis[1..][j].top > r.top;
      assert r == vis[k + 1];
      forall j | 0 <= j < k + 1
        ensures vis[j].top > r.top
      {
        if j > 0 {
          assert vis[j] == vis[1..][j - 1];
        }
      }
    }
    forall e | e in vis
      ensures r.top <= e.top
    {
      var j :| 0 <= j < |vis| && vis[j] == e;
      if j > 0 {
        assert e == vis[1..][j - 1];
      }
    }
  }

  /** The section chosen from one batch of entries, or none when nothing intersects: the
      intersecting entry with the least top, and of several with that top the one reported
      first. */
  function Topmost(entries: seq<Entry>): (r: Option<Entry>)
    ensures r.None? <==> forall e :: e in entries ==> !e.intersecting
    ensures r.Some? ==> r.value in entries && r.value.intersecting
    ensures r.Some? ==> forall e :: e in entries && e.intersecting ==> r.value.top <= e.top
    ensures r.Some? ==> exists k :: 0 <= k < |Intersecting(entries)| && Intersecting(entries)[k] == r.value
                                    && forall j :: 0 <= j < k ==> Intersecting(entries)[j].top > r.value.top
    ensures r.Some? ==> exists n :: EarliestLeast(entries, n, r.value)
  {
    var vis := Intersecting(entries);
    if |vis| == 0 then None
    else
      var r := Reduce(vis[0], vis[1..]);
      ReduceOver(vis);
      var k :| 0 <= k < |vis| && vis[k] == r && forall j :: 0 <= j < k ==> vis[j].top > r.top;
      EarliestInEntries(entries, k, r);
      Some(r)
  }

  /** What a batch updates: the address-bar hash and the active mark of every link. */
  datatype Nav = Nav(hash: Option<string>, active: seq<bool>)

  /** Handle one batch for links with the given `href`s: nothing changes when nothing
      intersects; otherwise the hash becomes "#" + id of the top-most section and exactly the
      links pointing there are active. */
  function OnEntries(nav: Nav, links: seq<string>, entries: seq<Entry>): (r: Nav)
    ensures Topmost(entries).None? ==> r == nav
    ensures Topmost(entries).Some? ==>
              var hash := "#" + Topmost(entries).value.id;
              && r.hash == Some(hash) && |r.active| == |links|
              && forall j :: 0 <= j < |links| ==> (r.active[j] <==> links[j] == hash)
  {
    match Topmost(entries)
    case None => nav
    case Some(top) =>
      var hash := "#" + top.id;
      Nav(Some(hash), seq(|links|, j requires 0 <= j < |links| => links[j] == hash))
  }
}

=== FILE: picker.dfy ===
/** One date or time picker: its resolved options, what the input shows, the selection, the
    month on display and whether its popover is open. Operations that also touch the shared
    "active instance" reference live in the `Coordinator` module. */
module Picker {
  import opened Wrappers
  import opened Calendar
  import opened Format
  import opened Grid
  import opened TimeList

  /** The options object a page passes in. `None` is an absent (undefined) key; for the date
      bounds, `Some(None)` is an explicit null. */
  datatype Options = Options(
    kind: Option<string>,
    format: Option<string>,
    placeholder: Option<string>,
    minDate: Option<Option<Date>>,
    maxDate: Option<Option<Date>>,
    timeStep: Option<int>,
    errorMessage: Option<string>)

  /** The resolved options. A picker is a calendar when `kind` is "date" and a time list for
      any other kind. */
  datatype Config = Config(
    kind: string,
    format: string,
    placeholder: string,
    minDate: Option<Date>,
    maxDate: Option<Date>,
    timeStep: int,
    errorMessage: string)
  {
    predicate IsDate() {
      kind == "date"
    }

    /** Every bound is a real calendar day, as a JavaScript Date always is. */
    predicate Valid() {
      (minDate.Some? ==> minDate.value.Valid()) && (maxDate.Some? ==> maxDate.value.Valid())
    }
  }

  const Defaults: Config := Config("date", DefaultFormat, "", None, None, 15, "This field is required.")

  const NoKeys: Options := Options(None, None, None, None, None, None, None)

  /** Option defaulting: a key that is given (even as null) wins; a missing key, or a missing
      options object, falls back to the default. */
  function Resolve(opts: Option<Options>): (c: Config)
    ensures opts.None? ==> c == Defaults
    ensures opts.Some? && opts.value.kind.Some? ==> c.kind == opts.value.kind.value
    ensures (opts.None? || opts.value.kind.None?) ==> c.kind == Defaults.kind
    ensures opts.Some? && opts.value.format.Some? ==> c.format == opts.value.format.value
    ensures (opts.None? || opts.value.format.None?) ==> c.format == Defaults.format
    ensures opts.Some? && opts.value.placeholder.Some? ==> c.placeholder == opts.value.placeholder.value
    ensures (opts.None? || opts.value.placeholder.None?) ==> c.placeholder == Defaults.placeholder
    ensures opts.Some? && opts.value.minDate.Some? ==> c.minDate == opts.value.minDate.value
    ensures (opts.None? || opts.value.minDate.None?) ==> c.minDate == Defaults.minDate
    ensures opts.Some? && opts.value.maxDate.Some? ==> c.maxDate == opts.value.maxDate.value
    ensures (opts.None? || opts.value.maxDate.None?) ==> c.maxDate == Defaults.maxDate
    ensures opts.Some? && opts.value.timeStep.Some? ==> c.timeStep == opts.value.timeStep.value
    ensures (opts.None? || opts.value.timeStep.None?) ==> c.timeStep == Defaults.timeStep
    ensures opts.Some? && opts.value.errorMessage.Some? ==> c.errorMessage == opts.value.errorMessage.value
    ensures (opts.None? || opts.value.errorMessage.None?) ==> c.errorMessage == Defaults.errorMessage
  {
    var o := opts.GetOr(NoKeys);
    Config(
      o.kind.GetOr(Defaults.kind),
      o.format.GetOr(Defaults.format),
      o.placeholder.GetOr(Defaults.placeholder),
      o.minDate.GetOr(Defaults.minDate),
      o.maxDate.GetOr(Defaults.maxDate),
      o.timeStep.GetOr(Defaults.timeStep),
      o.errorMessage.GetOr(Defaults.errorMessage))
  }

  /** The options object that spells out every key of `c`. */
  function Spell(c: Config): Options {
    Options(Some(c.kind), Some(c.format), Some(c.placeholder), Some(c.minDate), Some(c.maxDate),
            Some(c.timeStep), Some(c.errorMessage))
  }

  /** Resolving spelled-out options gives them back unchanged, and an empty options object
      behaves like no object at all. */
  lemma ResolveGiven(c: Config)
    ensures Resolve(Some(Spell(c))) == c
    ensures Resolve(Some(NoKeys)) == Resolve(None) == Defaults
  {
  }

  /** The `.fl-picker-input` element: its current text and its placeholder. */
  datatype Input = Input(value: string, placeholder: string)

  /** The wrapper element handed to the constructor, with the input found inside it, if any. */
  datatype Wrapper = Wrapper(input: Option<Input>)

  datatype Picker = Picker(
    config: Config,
    input: Input,
    isOpen: bool,
    selectedDate: Option<Date>,
    selectedTime: Option<string>,
    view: MonthView,
    hasError: bool,
    attached: bool)
  {
    /** What every reachable picker satisfies. */
    predicate Valid() {
      config.Valid() && view.Valid() && (selectedDate.Some? ==> selectedDate.value.Valid())
    }

    /** The time list can be rendered: a time picker's step is positive (otherwise the
        renderer's minute loop never ends). */
    predicate Renderable() {
      !config.IsDate() ==> config.timeStep > 0
    }
  }

  /** The outcome of the constructor: a console warning and no usable picker, or a picker. */
  datatype Construction = Warned(message: string) | Built(picker: Picker)

  const NoWrapperWarning: string := "FLDatePicker: wrapper element is required."
  const NoInputWarning: string := "FLDatePicker: .fl-picker-input not found inside wrapper."

  /** The constructor. `today` stands for the clock, which decides the first month on display. */
  function Construct(el: Option<Wrapper>, opts: Option<Options>, today: Date): (r: Construction)
    requires today.Valid()
    requires Resolve(opts).Valid()
    ensures el.None? ==> r == Warned(NoWrapperWarning)
    ensures el.Some? && el.value.input.None? ==> r == Warned(NoInputWarning)
    ensures r.Built? <==> el.Some? && el.value.input.Some?
    ensures r.Built? ==>
              var p := r.picker;
              p.Valid() && p.config == Resolve(opts) && !p.isOpen && p.selectedDate.None?
              && p.selectedTime.None? && !p.hasError && p.attached
              && p.view == MonthView(today.year, today.month)
              && p.input.value == el.value.input.value.value
              && p.input.placeholder ==
                   (if Resolve(opts).placeholder != "" then Resolve(opts).placeholder
                    else el.value.input.value.placeholder)
  {
    if el.None? then Warned(NoWrapperWarning)
    else if el.value.input.None? then Warned(NoInputWarning)
    else
      var config := Resolve(opts);
      var markup := el.value.input.value;
      var input := if config.placeholder != "" then markup.(placeholder := config.placeholder) else markup;
      Built(Picker(config, input, false, None, None, MonthView(today.year, today.month), false, true))
  }

  /** The day cells on display. */
  function Cells(p: Picker): seq<Cell>
    requires p.Valid()
  {
    Layout(p.view, p.config.minDate, p.config.maxDate)
  }

  /** The time options on display. */
  function TimeOptions(p: Picker): seq<TimeOption>
    requires p.config.timeStep > 0
  {
    OptionsFor(Slots(p.config.timeStep), p.selectedTime)
  }

  /** This picker's part of `open`: a calendar jumps to the month of the selected date, if any;
      then the popover is shown. */
  function Show(p: Picker): (q: Picker)
    requires p.Valid()
    ensures q.Valid() && q.isOpen
    ensures q.config.IsDate() && p.selectedDate.Some? ==>
              q.view == MonthView(p.selectedDate.value.year, p.selectedDate.value.month)
    ensures !(q.config.IsDate() && p.selectedDate.Some?) ==> q.view == p.view
    ensures q == p.(isOpen := true, view := q.view)
  {
    var view := if p.config.IsDate() && p.selectedDate.Some? then
                  MonthView(p.selectedDate.value.year, p.selectedDate.value.month)
                else p.view;
    p.(isOpen := true, view := view)
  }

  /** This picker's part of `close`. */
  function Hide(p: Picker): (q: Picker)
    ensures !q.isOpen && q == p.(isOpen := false)
  {
    p.(isOpen := false)
  }

  /** `validate`: an empty input fails and raises the error mark, anything else passes and
      clears it. */
  function Validate(p: Picker): (r: (Picker, bool))
    ensures r.1 <==> p.input.value != ""
    ensures r.0.hasError <==> !r.1
    ensures r.0 == p.(hasError := r.0.hasError)
  {
    if p.input.value == "" then (p.(hasError := true), false) else (p.(hasError := false), true)
  }

  /** What `getValue` returns. */
  datatype Value = Null | DateValue(date: Date) | TimeValue(text: string)

  /** `getValue`: the selected date of a calendar, the selected label of a time picker (an
      empty label counts as none), or null. */
  function GetValue(p: Picker): (v: Value)
    ensures p.config.IsDate() ==> (v.DateValue? <==> p.selectedDate.Some?)
    ensures p.config.IsDate() && p.selectedDate.Some? ==> v == DateValue(p.selectedDate.value)
    ensures !p.config.IsDate() ==> (v.TimeValue? <==> p.selectedTime.Some? && p.selectedTime.value != "")
    ensures v.TimeValue? ==> Some(v.text) == p.selectedTime
    ensures v.Null? || v.DateValue? == p.config.IsDate()
  {
    if p.config.IsDate() then
      if p.selectedDate.Some? then DateValue(p.selectedDate.value) else Null
    else if p.selectedTime.Some? && p.selectedTime.value != "" then TimeValue(p.selectedTime.value)
    else Null
  }

  /** A click on grid cell `k`. Blanks, disabled days and anything outside the grid change
      nothing; an enabled day becomes the selection, fills the input and clears the error
      mark (the caller then closes the picker). */
  function ClickCell(p: Picker, k: int): (r: (Picker, bool))
    requires p.Valid() && p.config.IsDate()
    ensures r.1 <==> EnabledDayAt(Cells(p), k).Some?
    ensures !r.1 ==> r.0 == p
    ensures r.1 ==>
              var date := Date(p.view.year, p.view.month, EnabledDayAt(Cells(p), k).value);
              date.Valid() && r.0.Valid()
              && r.0 == p.(selectedDate := Some(date), input := p.input.(value := FormatDate(date, p.config.format)),
                           hasError := false)
  {
    match EnabledDayAt(Cells(p), k)
    case None => (p, false)
    case Some(d) =>
      CellDay(p, k);
      var date := Date(p.view.year, p.view.month, d);
      (p.(selectedDate := Some(date), input := p.input.(value := FormatDate(date, p.config.format)), hasError := false), true)
  }

  /** A day button of the grid shows a day of the month on display. */
  lemma CellDay(p: Picker, k: int)
    requires p.Valid() && EnabledDayAt(Cells(p), k).Some?
    ensures Date(p.view.year, p.view.month, EnabledDayAt(Cells(p), k).value).Valid()
    ensures k == FirstWeekday(p.view) + EnabledDayAt(Cells(p), k).value - 1
  {
    var cells := Cells(p);
    var w := FirstWeekday(p.view);
    var d := k - w + 1;
    assert cells[w + d - 1] == DayCell(p.view, p.config.minDate, p.config.maxDate, d);
  }

  /** After a day is committed, `getValue` returns it, the input holds its formatted text
      (read back exactly under the default format), and re-rendering the grid marks that one
      cell as selected. */
  lemma DayCommitted(p: Picker, k: int, i: int)
    requires p.Valid() && p.config.IsDate() && ClickCell(p, k).1
    requires 0 <= i < |Cells(p)|
    ensures var q := ClickCell(p, k).0;
            && GetValue(q) == DateValue(q.selectedDate.value)
            && (p.config.format == DefaultFormat ==> ParseDefaultDate(q.input.value) == q.selectedDate)
            && Cells(q) == Cells(p)
            && (MarkedSelected(q.view, Cells(q)[i], q.selectedDate) <==> i == k)
  {
    var q := ClickCell(p, k).0;
    CellDay(p, k);
    SelectedMarkPlacement(q.view, q.config.minDate, q.config.maxDate, q.selectedDate, i);
  }

  /** A click on time option `j` (the options form the list on display; positions outside it
      change nothing). The option's label becomes the selection and the input text, and the
      error mark is cleared (the caller then closes the picker). */
  function ClickOption(p: Picker, j: int): (r: (Picker, bool))
    requires !p.config.IsDate() && p.config.timeStep > 0
    ensures r.1 <==> 0 <= j < |Slots(p.config.timeStep)|
    ensures !r.1 ==> r.0 == p
    ensures r.1 ==>
              r.0 == p.(selectedTime := Some(Label(p.config.timeStep, j)),
                        input := p.input.(value := Label(p.config.timeStep, j)), hasError := false)
  {
    if 0 <= j < |Slots(p.config.timeStep)| then
      var text := Label(p.config.timeStep, j);
      (p.(selectedTime := Some(text), input := p.input.(value := text), hasError := false), true)
    else (p, false)
  }

  /** After option `j` is committed, `getValue` returns its label, that label reads back as the
      option's time of day, and re-rendering the list marks option `j` and no other. */
  lemma OptionCommitted(p: Picker, j: int, i: int)
    requires !p.config.IsDate() && p.config.timeStep > 0 && ClickOption(p, j).1
    requires 0 <= i < |Slots(p.config.timeStep)|
    ensures var q := ClickOption(p, j).0;
            var slot := Slots(p.config.timeStep)[j];
            && GetValue(q) == TimeValue(Label(p.config.timeStep, j))
            && ParseTime(q.input.value) == Some((slot.hour, slot.minute))
            && |TimeOptions(q)| == |Slots(p.config.timeStep)|
            && (TimeOptions(q)[i].selected <==> i == j)
  {
    var step := p.config.timeStep;
    var q := ClickOption(p, j).0;
    SlotsOrdered(step);
    var slot := Slots(step)[j];
    assert InDay(slot);
    FormatTimeRoundTrip(slot.hour, slot.minute);
    RenderedOptions(step, q.selectedTime);
    SelectedOptionUnique(step, j, i);
  }

  /** The previous-month button of a calendar. */
  function PrevView(p: Picker): (q: Picker)
    requires p.Valid() && p.config.IsDate()
    ensures q.Valid() && MonthIndex(q.view) == MonthIndex(p.view) - 1
    ensures q == p.(view := q.view)
  {
    p.(view := PrevMonth(p.view))
  }

  /** The next-month button of a calendar. */
  function NextView(p: Picker): (q: Picker)
    requires p.Valid() && p.config.IsDate()
    ensures q.Valid() && MonthIndex(q.view) == MonthIndex(p.view) + 1
    ensures q == p.(view := q.view)
  {
    p.(view := NextMonth(p.view))
  }

  /** The two buttons undo each other and leave the selection alone. */
  lemma PrevNextRestore(p: Picker)
    requires p.Valid() && p.config.IsDate()
    ensures PrevView(NextView(p)) == p && NextView(PrevView(p)) == p
    ensures PrevView(p).selectedDate == p.selectedDate && NextView(p).selectedDate == p.selectedDate
  {
    PrevNextInverse(p.view);
  }

  /** `destroy`'s effect on the picker itself: the popover and error elements leave the page;
      the open flag is left as it was. */
  function Detach(p: Picker): (q: Picker)
    ensures !q.attached && q.isOpen == p.isOpen && q == p.(attached := false)
  {
    p.(attached := false)
  }
}

=== FILE: seqs.dfy ===
/** Searching sequences the way `Array.prototype.indexOf` and `String.prototype.indexOf` do. */
module Seqs {

  /** Position of the first `x` in `s`, or -1 when `s` holds no `x`. */
  function IndexOf<T(==)>(s: seq<T>, x: T): (r: int)
    ensures -1 <= r < |s|
    ensures r == -1 <==> x !in s
    ensures 0 <= r ==> s[r] == x && forall j :: 0 <= j < r ==> s[j] != x
  {
    if |s| == 0 then -1
    else if s[0] == x then 0
    else
      var r := IndexOf(s[1..], x);
      if r == -1 then -1 else r + 1
  }

  /** `p` occurs in `s` starting at position `i`. */
  predicate OccursAt<T(==)>(s: seq<T>, p: seq<T>, i: int) {
    0 <= i && i + |p| <= |s| && s[i..i + |p|] == p
  }

  /** The first position at or after `from` where `p` occurs in `s`. */
  function FindFrom<T(==)>(s: seq<T>, p: seq<T>, from: nat): (r: int)
    requires from <= |s| + 1
    ensures r == -1 || (from <= r && OccursAt(s, p, r))
    ensures r == -1 ==> forall j :: from <= j <= |s| ==> !OccursAt(s, p, j)
    ensures r != -1 ==> forall j :: from <= j < r ==> !OccursAt(s, p, j)
    decreases |s| + 1 - from
  {
    if from > |s| then -1
    else if OccursAt(s, p, from) then from
    else FindFrom(s, p, from + 1)
  }

  /** The first position where `p` occurs in `s`, or -1. */
  function Find<T(==)>(s: seq<T>, p: seq<T>): (r: int)
    ensures r == -1 || OccursAt(s, p, r)
    ensures r == -1 ==> forall j :: 0 <= j <= |s| ==> !OccursAt(s, p, j)
    ensures r != -1 ==> forall j :: 0 <= j < r ==> !OccursAt(s, p, j)
  {
    FindFrom(s, p, 0)
  }

  /** Replaces the first occurrence of `p` in `s` by `rep`, as `String.prototype.replace`
      does when given a string pattern. */
  function ReplaceFirst<T(==)>(s: seq<T>, p: seq<T>, rep: seq<T>): (r: seq<T>)
    ensures (forall j :: 0 <= j <= |s| ==> !OccursAt(s, p, j)) ==> r == s
    ensures forall k {:trigger OccursAt(s, p, k)} :: OccursAt(s, p, k) && (forall j :: 0 <= j < k ==> !OccursAt(s, p, j)) ==>
              r == s[..k] + rep + s[k + |p|..]
  {
    var k := Find(s, p);
    if k == -1 then s else s[..k] + rep + s[k + |p|..]
  }

  /** `x` does not occur anywhere in `s`. */
  predicate Avoids<T(==)>(s: seq<T>, x: T) {
    forall k :: 0 <= k < |s| ==> s[k] != x
  }

  /** An element that does not occur earlier is found at its own position. */
  lemma IndexOfFirst<T>(s: seq<T>, i: int)
    requires 0 <= i < |s|
    requires forall j :: 0 <= j < i ==> s[j] != s[i]
    ensures IndexOf(s, s[i]) == i
  {
  }

  lemma AppendAssoc<T>(a: seq<T>, b: seq<T>, c: seq<T>)
    ensures (a + b) + c == a + (b + c)
  {
  }

  /** A prefix one longer is the prefix followed by the next element. */
  lemma PrefixExtend<T>(s: seq<T>, k: int)
    requires 0 <= k < |s|
    ensures s[..k + 1] == s[..k] + [s[k]]
  {
  }

  lemma AvoidsConcat<T>(a: seq<T>, b: seq<T>, x: T)
    requires Avoids(a, x) && Avoids(b, x)
    ensures Avoids(a + b, x)
  {
    forall k | 0 <= k < |a + b|
      ensures (a + b)[k] != x
    {
      if k >= |a| {
        assert (a + b)[k] == b[k - |a|];
      }
    }
  }

  /** The first `x` of `a + [x] + b` is the one after `a` when `a` holds none. */
  lemma IndexOfAfter<T>(a: seq<T>, x: T, b: seq<T>)
    requires Avoids(a, x)
    ensures IndexOf(a + [x] + b, x) == |a|
  {
    var s := a + [x] + b;
    assert s[|a|] == x;
    assert forall j :: 0 <= j < |a| ==> s[j] == a[j];
  }

  /** A position whose element differs from the head of `p` is not an occurrence of `p`. */
  lemma NotOccursAtFirstDiffers<T>(s: seq<T>, p: seq<T>, j: int)
    requires 0 < |p| && 0 <= j < |s| && s[j] != p[0]
    ensures !OccursAt(s, p, j)
  {
    if j + |p| <= |s| {
      assert s[j..j + |p|][0] == s[j];
    }
  }

  /** Replacing in a text whose prefix cannot start the pattern hits the occurrence right
      after the prefix. */
  lemma ReplaceAfterPrefix<T>(prefix: seq<T>, p: seq<T>, rest: seq<T>, rep: seq<T>)
    requires 0 < |p| && |p| <= |rest| && rest[..|p|] == p
    requires Avoids(prefix, p[0])
    ensures ReplaceFirst(prefix + rest, p, rep) == prefix + rep + rest[|p|..]
  {
    var s := prefix + rest;
    assert s[|prefix|..|prefix| + |p|] == rest[..|p|];
    assert OccursAt(s, p, |prefix|);
    forall j | 0 <= j < |prefix|
      ensures !OccursAt(s, p, j)
    {
      assert s[j] == prefix[j];
      NotOccursAtFirstDiffers(s, p, j);
    }
    assert s[..|prefix|] == prefix;
    assert s[|prefix| + |p|..] == rest[|p|..];
  }

  /** A text that starts with the pattern has that leading occurrence replaced. */
  lemma ReplaceAtStart<T>(s: seq<T>, p: seq<T>, rep: seq<T>)
    requires |p| <= |s| && s[..|p|] == p
    ensures ReplaceFirst(s, p, rep) == rep + s[|p|..]
  {
    assert s[0..|p|] == p;
    assert FindFrom(s, p, 0) == 0;
    assert s[..0] + rep == rep;
  }

  /** Appending nothing, on either side. */
  lemma EmptyPrefix<T>(s: seq<T>)
    ensures [] + s == s
  {
  }

  lemma EmptySuffix<T>(s: seq<T>)
    ensures s + [] == s
  {
  }

  /** Indexing a concatenation: positions of `b` follow those of `a`. */
  lemma ConcatIndex<T>(a: seq<T>, b: seq<T>, i: int)
    requires 0 <= i < |a| + |b|
    ensures i < |a| ==> (a + b)[i] == a[i]
    ensures i >= |a| ==> (a + b)[i] == b[i - |a|]
  {
  }
}

=== FILE: slides.dfy ===
/** The header carousel's emphasis rule: after every slide change the "scaled" mark is
    removed from all slides and given to the middle visible slide, but only when exactly three
    slides are visible. */
module Slides {

  /** Number of visible slides among the first `n`. */
  function CountVisible(visible: seq<bool>, n: nat): nat
    requires n <= |visible|
  {
    if n == 0 then 0 else CountVisible(visible, n - 1) + (if visible[n - 1] then 1 else 0)
  }

  /** Positions of the visible slides among the first `n`, in order: the filtered list. Each
      visible slide sits at the index given by the count of visible slides before it. */
  function VisibleBelow(visible: seq<bool>, n: nat): (vis: seq<int>)
    requires n <= |visible|
    ensures |vis| == CountVisible(visible, n)
    ensures forall k :: 0 <= k < |vis| ==> 0 <= vis[k] < n && visible[vis[k]] && CountVisible(visible, vis[k]) == k
    ensures forall j :: 0 <= j < n && visible[j] ==> CountVisible(visible, j) < |vis| && vis[CountVisible(visible, j)] == j
  {
    if n == 0 then []
    else
      var before := VisibleBelow(visible, n - 1);
      var vis := if visible[n - 1] then before + [n - 1] else before;
      VisibleStep(visible, n, before, vis);
      vis
  }

  /** The inductive step of `VisibleBelow`: appending slide `n - 1` when it is visible. */
  lemma VisibleStep(visible: seq<bool>, n: nat, before: seq<int>, vis: seq<int>)
    requires 0 < n <= |visible|
    requires |before| == CountVisible(visible, n - 1)
    requires forall k :: 0 <= k < |before| ==> 0 <= before[k] < n - 1 && visible[before[k]] && CountVisible(visible, before[k]) == k
    requires forall j :: 0 <= j < n - 1 && visible[j] ==> CountVisible(visible, j) < |before| && before[CountVisible(visible, j)] == j
    requires vis == if visible[n - 1] then before + [n - 1] else before
    ensures |vis| == CountVisible(visible, n)
    ensures forall k :: 0 <= k < |vis| ==> 0 <= vis[k] < n && visible[vis[k]] && CountVisible(visible, vis[k]) == k
    ensures forall j :: 0 <= j < n && visible[j] ==> CountVisible(visible, j) < |vis| && vis[CountVisible(visible, j)] == j
  {
    assert CountVisible(visible, n) == CountVisible(visible, n - 1) + (if visible[n - 1] then 1 else 0);
    forall k | 0 <= k < |vis|
      ensures 0 <= vis[k] < n && visible[vis[k]] && CountVisible(visible, vis[k]) == k
    {
      if k < |before| {
        assert vis[k] == before[k];
      }
    }
    forall j | 0 <= j < n && visible[j]
      ensures CountVisible(visible, j) < |vis| && vis[CountVisible(visible, j)] == j
    {
      if j < n - 1 {
        assert vis[CountVisible(visible, j)] == before[CountVisible(visible, j)];
      }
    }
  }

  /** The positions of all visible slides. */
  function VisibleSlides(visible: seq<bool>): seq<int> {
    VisibleBelow(visible, |visible|)
  }

  /** The scaled mark of every slide after the rule runs: a slide is scaled exactly when three
      slides are visible and it is the visible slide with one visible slide before it. */
  function ScaleMiddle(visible: seq<bool>): (scaled: seq<bool>)
    ensures |scaled| == |visible|
    ensures forall j :: 0 <= j < |visible| ==>
              (scaled[j] <==> CountVisible(visible, |visible|) == 3 && visible[j] && CountVisible(visible, j) == 1)
  {
    var vis := VisibleSlides(visible);
    if |vis| == 3 then seq(|visible|, j => j == vis[1]) else seq(|visible|, _ => false)
  }

  /** No two slides are scaled together. */
  lemma AtMostOneScaled(visible: seq<bool>, i: int, j: int)
    requires 0 <= i < |visible| && 0 <= j < |visible|
    requires ScaleMiddle(visible)[i] && ScaleMiddle(visible)[j]
    ensures i == j
  {
  }

  /** Some slide is scaled exactly when three are visible. */
  lemma ScaledWhenThree(visible: seq<bool>)
    ensures (exists j :: 0 <= j < |visible| && ScaleMiddle(visible)[j]) <==> CountVisible(visible, |visible|) == 3
  {
    var vis := VisibleSlides(visible);
    if |vis| == 3 {
      assert ScaleMiddle(visible)[vis[1]];
    }
  }
}

=== FILE: text.dfy ===
/** Decimal text of integers, as JavaScript's `String(n)` writes it, and its inverse. */
module Text {
  import opened Wrappers
  import opened Seqs

  predicate IsDigit(c: char) {
    '0' <= c <= '9'
  }

  predicate AllDigits(s: string) {
    forall i :: 0 <= i < |s| ==> IsDigit(s[i])
  }

  function DigitValue(c: char): (d: nat)
    requires IsDigit(c)
    ensures d < 10
  {
    c as int - '0' as int
  }

  function DigitChar(d: nat): (c: char)
    requires d < 10
    ensures IsDigit(c) && DigitValue(c) == d
  {
    ('0' as int + d) as char
  }

  /** Shortest decimal text of `n` (no leading zeros). */
  function NatToString(n: nat): (s: string)
    ensures 1 <= |s| && AllDigits(s)
    ensures |s| == 1 <==> n < 10
    decreases n
  {
    if n < 10 then [DigitChar(n)] else NatToString(n / 10) + [DigitChar(n % 10)]
  }

  /** Value of a string of decimal digits (the empty string reads as 0). */
  function ParseNat(s: string): nat
    requires AllDigits(s)
    decreases |s|
  {
    if |s| == 0 then 0 else ParseNat(s[..|s| - 1]) * 10 + DigitValue(s[|s| - 1])
  }

  /** Decimal text of an integer, with a leading '-' for negative values. */
  function IntToString(i: int): (s: string)
    ensures 1 <= |s|
    ensures s[0] == '-' <==> i < 0
    ensures i >= 0 ==> AllDigits(s)
    ensures i < 0 ==> AllDigits(s[1..])
  {
    if i < 0 then "-" + NatToString(-i) else NatToString(i)
  }

  /** Reads an optionally signed, non-empty run of decimal digits. */
  function ParseInt(s: string): Option<int> {
    if 2 <= |s| && s[0] == '-' && AllDigits(s[1..]) then
      var magnitude: int := ParseNat(s[1..]);
      Some(-magnitude)
    else if 1 <= |s| && AllDigits(s) then Some(ParseNat(s) as int)
    else None
  }

  /** Reading back the decimal text of `n` gives `n`. */
  lemma {:induction false} ParseNatToString(n: nat)
    ensures ParseNat(NatToString(n)) == n
    decreases n
  {
    if n >= 10 {
      var s := NatToString(n);
      assert s[..|s| - 1] == NatToString(n / 10);
      ParseNatToString(n / 10);
    }
  }

  /** The decimal text of a two-digit number has exactly two characters. */
  lemma TwoDigitLength(n: nat)
    requires 10 <= n < 100
    ensures |NatToString(n)| == 2
  {
    assert NatToString(n) == NatToString(n / 10) + [DigitChar(n % 10)];
  }

  /** A leading zero does not change the value of a digit string. */
  lemma {:induction false} ParseNatLeadingZero(s: string)
    requires AllDigits(s)
    ensures AllDigits("0" + s) && ParseNat("0" + s) == ParseNat(s)
    decreases |s|
  {
    if |s| > 0 {
      var t := "0" + s;
      assert t[..|t| - 1] == "0" + s[..|s| - 1];
      ParseNatLeadingZero(s[..|s| - 1]);
    }
  }

  /** Reading back the decimal text of `i` gives `i`. */
  lemma ParseIntToString(i: int)
    ensures ParseInt(IntToString(i)) == Some(i)
  {
    if i < 0 {
      ParseNegative(-i);
    } else {
      ParseNonNegative(i);
    }
  }

  /** The text "-" followed by the digits of `n` reads as `-n`. */
  lemma ParseNegative(n: nat)
    ensures ParseInt("-" + NatToString(n)) == Some(-(n as int))
  {
    var t := NatToString(n);
    var s := "-" + t;
    assert s[1..] == t;
    ParseNatToString(n);
  }

  /** The digits of `n`, which do not start with '-', read as `n`. */
  lemma ParseNonNegative(n: nat)
    ensures ParseInt(NatToString(n)) == Some(n)
  {
    var s := NatToString(n);
    assert IsDigit(s[0]);
    ParseNatToString(n);
  }

  /** A digit string holds no character that is not a digit. */
  lemma DigitsAvoid(s: string, c: char)
    requires AllDigits(s) && !IsDigit(c)
    ensures Avoids(s, c)
  {
  }
}

=== FILE: timelist.dfy ===
/** The options of the time picker: for every hour 0..23, the minutes 0, step, 2·step, ...
    below 60, each shown as a 12-hour label. */
module TimeList {
  import opened Wrappers
  import opened Seqs
  import opened Format

  /** A time of day as the nested loop produces it. */
  datatype Slot = Slot(hour: nat, minute: nat)

  /** Ordering of times of day: hour first, then minute. */
  predicate SlotBefore(a: Slot, b: Slot) {
    a.hour < b.hour || (a.hour == b.hour && a.minute < b.minute)
  }

  /** Number of times the loop `m += step` runs from `m` while `m < limit`. */
  function CountFrom(m: int, limit: int, step: int): (n: nat)
    requires step > 0
    decreases limit - m
  {
    if m >= limit then 0 else 1 + CountFrom(m + step, limit, step)
  }

  /** Options per hour. */
  function PerHour(step: int): nat
    requires step > 0
  {
    CountFrom(0, 60, step)
  }

  /** The inner loop of hour `h` from minute `m` on. */
  function MinuteSlots(h: nat, m: nat, step: int): (slots: seq<Slot>)
    requires step > 0
    ensures |slots| == CountFrom(m, 60, step)
    decreases 60 - m
  {
    if m >= 60 then [] else [Slot(h, m)] + MinuteSlots(h, m + step, step)
  }

  /** The outer loop from hour `h` on. */
  function HourSlots(h: nat, step: int): (slots: seq<Slot>)
    requires step > 0
    requires h <= 24
    decreases 24 - h
  {
    if h == 24 then [] else MinuteSlots(h, 0, step) + HourSlots(h + 1, step)
  }

  /** Every time of day the list offers, in list order. */
  function Slots(step: int): seq<Slot>
    requires step > 0
  {
    HourSlots(0, step)
  }

  /** The list holds 24 · PerHour(step) options. */
  lemma SlotCount(step: int)
    requires step > 0
    ensures |Slots(step)| == 24 * PerHour(step)
  {
    HourSlotsLength(0, step);
    TimesIsProduct(24, PerHour(step));
  }

  /** The label of option `i`. */
  function Label(step: int, i: int): string
    requires step > 0 && 0 <= i < |Slots(step)|
  {
    FormatTime(Slots(step)[i].hour, Slots(step)[i].minute)
  }

  /** All labels, in list order. */
  function TimeLabels(step: int): (labels: seq<string>)
    requires step > 0
    ensures |labels| == |Slots(step)|
    ensures forall i :: 0 <= i < |labels| ==> labels[i] == Label(step, i)
  {
    seq(|Slots(step)|, i requires 0 <= i < |Slots(step)| => Label(step, i))
  }

  /** `PerHour` is the ceiling of 60 / step: the least count whose steps reach 60. */
  lemma PerHourIsCeiling(step: int)
    requires step > 0
    ensures PerHour(step) * step >= 60
    ensures (PerHour(step) - 1) * step < 60
  {
    CountReaches(0, 60, step);
  }

  lemma {:induction false} CountReaches(m: int, limit: int, step: int)
    requires step > 0 && m < limit
    ensures m + CountFrom(m, limit, step) * step >= limit
    ensures m + (CountFrom(m, limit, step) - 1) * step < limit
    decreases limit - m
  {
    if m + step < limit {
      CountReaches(m + step, limit, step);
    }
  }

  /** Position `j` of an hour's inner loop is minute `m + j·step`, below 60. */
  lemma {:induction false} MinuteSlotAt(h: nat, m: nat, step: int, j: int)
    requires step > 0 && 0 <= j < CountFrom(m, 60, step)
    ensures MinuteSlots(h, m, step)[j] == Slot(h, m + j * step)
    ensures m + j * step < 60
    decreases j
  {
    var rest := MinuteSlots(h, m + step, step);
    assert MinuteSlots(h, m, step) == [Slot(h, m)] + rest;
    if j == 0 {
      assert m + j * step == m;
    } else {
      MinuteSlotAt(h, m + step, step, j - 1);
      assert rest[j - 1] == Slot(h, m + step + (j - 1) * step);
      assert m + step + (j - 1) * step == m + j * step;
    }
  }

  /** `a` blocks of `p` options, counted by repeated addition. */
  function Times(a: nat, p: nat): nat {
    if a == 0 then 0 else Times(a - 1, p) + p
  }

  lemma {:induction false} TimesIsProduct(a: nat, p: nat)
    ensures Times(a, p) == a * p
  {
    if a > 0 {
      TimesIsProduct(a - 1, p);
    }
  }

  lemma {:induction false} HourSlotsLength(h: nat, step: int)
    requires step > 0 && h <= 24
    ensures |HourSlots(h, step)| == Times(24 - h, PerHour(step))
    decreases 24 - h
  {
    if h < 24 {
      HourSlotsUnfold(h, step);
      HourSlotsLength(h + 1, step);
      assert Times(24 - h, PerHour(step)) == Times(24 - (h + 1), PerHour(step)) + PerHour(step);
    }
  }

  lemma {:induction false} HourSlotAt(h0: nat, step: int, a: nat, j: int)
    requires step > 0 && h0 + a < 24 && 0 <= j < PerHour(step)
    ensures Times(a, PerHour(step)) + j < |HourSlots(h0, step)|
    ensures HourSlots(h0, step)[Times(a, PerHour(step)) + j] == Slot(h0 + a, j * step)
    decreases a
  {
    HourSlotsUnfold(h0, step);
    if a == 0 {
      MinuteSlotAt(h0, 0, step, j);
      ConcatIndex(MinuteSlots(h0, 0, step), HourSlots(h0 + 1, step), j);
    } else {
      HourSlotAt(h0 + 1, step, a - 1, j);
      LaterHourSlot(h0, step, Times(a - 1, PerHour(step)) + j);
    }
  }

  /** The outer loop's list is the hour's slots followed by the later hours'. */
  lemma HourSlotsUnfold(h: nat, step: int)
    requires step > 0 && h < 24
    ensures HourSlots(h, step) == MinuteSlots(h, 0, step) + HourSlots(h + 1, step)
    ensures |MinuteSlots(h, 0, step)| == PerHour(step)
  {
  }

  /** Position `i` of the later hours' slots is position `PerHour + i` from hour `h` on. */
  lemma LaterHourSlot(h: nat, step: int, i: int)
    requires step > 0 && h < 24 && 0 <= i < |HourSlots(h + 1, step)|
    ensures PerHour(step) + i < |HourSlots(h, step)|
    ensures HourSlots(h, step)[PerHour(step) + i] == HourSlots(h + 1, step)[i]
  {
    HourSlotsUnfold(h, step);
    ConcatIndex(MinuteSlots(h, 0, step), HourSlots(h + 1, step), PerHour(step) + i);
  }

  /** Option `i` exists and is hour `h`, minute `m`. */
  predicate OptionIs(step: int, i: int, h: int, m: int)
    requires step > 0
  {
    0 <= i < |Slots(step)| && Slots(step)[i].hour == h && Slots(step)[i].minute == m
  }

  /** Hour-major order: option `h·PerHour + j` is hour `h`, minute `j·step`. */
  lemma SlotAt(step: int, h: int, j: int)
    requires step > 0 && 0 <= h < 24 && 0 <= j < PerHour(step)
    ensures j * step < 60
    ensures OptionIs(step, h * PerHour(step) + j, h, j * step)
  {
    var p := PerHour(step);
    HourSlotAt(0, step, h, j);
    TimesIsProduct(h, p);
    MinuteSlotAt(h, 0, step, j);
    assert Slots(step)[Times(h, p) + j] == Slot(h, j * step);
  }

  predicate InDay(s: Slot) {
    s.hour < 24 && s.minute < 60
  }

  lemma {:induction false} MinuteSlotsInDay(h: nat, m: nat, step: int)
    requires step > 0 && h < 24
    ensures forall i :: 0 <= i < |MinuteSlots(h, m, step)| ==> InDay(MinuteSlots(h, m, step)[i]) && MinuteSlots(h, m, step)[i].hour == h
    ensures forall i, k :: 0 <= i < k < |MinuteSlots(h, m, step)| ==> MinuteSlots(h, m, step)[i].minute < MinuteSlots(h, m, step)[k].minute
    ensures forall i :: 0 <= i < |MinuteSlots(h, m, step)| ==> m <= MinuteSlots(h, m, step)[i].minute
    decreases 60 - m
  {
    if m < 60 {
      MinuteSlotsInDay(h, m + step, step);
    }
  }

  lemma {:induction false} HourSlotsOrdered(h: nat, step: int)
    requires step > 0 && h <= 24
    ensures forall i :: 0 <= i < |HourSlots(h, step)| ==> InDay(HourSlots(h, step)[i]) && h <= HourSlots(h, step)[i].hour
    ensures forall i, k :: 0 <= i < k < |HourSlots(h, step)| ==> SlotBefore(HourSlots(h, step)[i], HourSlots(h, step)[k])
    decreases 24 - h
  {
    if h < 24 {
      MinuteSlotsInDay(h, 0, step);
      HourSlotsOrdered(h + 1, step);
      var first := MinuteSlots(h, 0, step);
      var rest := HourSlots(h + 1, step);
      assert HourSlots(h, step) == first + rest;
      forall i, k | 0 <= i < k < |first + rest|
        ensures SlotBefore((first + rest)[i], (first + rest)[k])
      {
        if k < |first| {
          assert (first + rest)[i] == first[i] && (first + rest)[k] == first[k];
        } else if i < |first| {
          assert (first + rest)[i] == first[i] && (first + rest)[k] == rest[k - |first|];
        } else {
          assert (first + rest)[i] == rest[i - |first|] && (first + rest)[k] == rest[k - |first|];
        }
      }
    }
  }

  /** Every option is a time of day, and the options are strictly increasing in time, so no
      time appears twice. */
  lemma SlotsOrdered(step: int)
    requires step > 0
    ensures forall i :: 0 <= i < |Slots(step)| ==> InDay(Slots(step)[i])
    ensures forall i, k :: 0 <= i < k < |Slots(step)| ==> SlotBefore(Slots(step)[i], Slots(step)[k])
  {
    HourSlotsOrdered(0, step);
  }

  /** No two options carry the same label. */
  lemma LabelsDistinct(step: int, i: int, k: int)
    requires step > 0 && 0 <= i < k < |Slots(step)|
    ensures Label(step, i) != Label(step, k)
  {
    SlotsOrdered(step);
    var a := Slots(step)[i];
    var b := Slots(step)[k];
    FormatTimeInjective(a.hour, a.minute, b.hour, b.minute);
  }

  /** The first option is midnight, "12:00 AM". */
  lemma FirstLabel(step: int)
    requires step > 0
    ensures |TimeLabels(step)| > 0 && TimeLabels(step)[0] == "12:00 AM"
  {
    SlotAt(step, 0, 0);
    assert Slots(step)[0] == Slot(0, 0);
    MidnightLabel();
  }

  lemma MidnightLabel()
    ensures FormatTime(0, 0) == "12:00 AM"
  {
  }

  lemma QuarterToMidnightLabel()
    ensures FormatTime(23, 45) == "11:45 PM"
  {
  }

  /** With the default step of 15 minutes there are 96 options, the last "11:45 PM". */
  lemma QuarterHours(step: int)
    requires step == 15
    ensures PerHour(step) == 4
    ensures |TimeLabels(step)| == 96
    ensures TimeLabels(step)[95] == "11:45 PM"
  {
    assert PerHour(15) == 4;
    SlotCount(step);
    SlotAt(step, 23, 3);
    assert Slots(step)[95] == Slot(23, 45);
    QuarterToMidnightLabel();
  }

  lemma HalfPastOneLabel()
    ensures FormatTime(13, 30) == "1:30 PM"
  {
  }

  /** With a 30-minute step there are 48 options, and option 27 is "1:30 PM". */
  lemma HalfHours()
    ensures PerHour(30) == 2 && |Slots(30)| == 48
    ensures Label(30, 27) == "1:30 PM"
  {
    assert PerHour(30) == 2;
    SlotCount(30);
    SlotAt(30, 13, 1);
    assert Slots(30)[27] == Slot(13, 30);
    HalfPastOneLabel();
  }

  // ---------------------------------------------------------------------------
  // Comparison with "every multiple of step below 24 hours"

  /** The multiples of `step` from minute `t` of the day on, below 1440, as times of day. */
  function Multiples(t: nat, step: int): (slots: seq<Slot>)
    requires step > 0
    ensures |slots| == CountFrom(t, 1440, step)
    decreases 1440 - t
  {
    if t >= 1440 then [] else [Slot(t / 60, t % 60)] + Multiples(t + step, step)
  }

  /** Stepping from minute `m` lands exactly on 60. */
  predicate HitsSixty(m: int, step: int)
    requires step > 0
    decreases 60 - m
  {
    m == 60 || (m < 60 && HitsSixty(m + step, step))
  }

  lemma {:induction false} MultipleHitsSixty(step: int, q: nat, j: nat)
    requires step > 0 && q * step == 60 && j <= q
    ensures HitsSixty(j * step, step)
    decreases q - j
  {
    if j < q {
      MultipleHitsSixty(step, q, j + 1);
      assert (j + 1) * step == j * step + step;
      assert j * step < 60 by {
        assert (q - j) * step > 0;
      }
    }
  }

  /** From a minute that steps onto 60 exactly, with a step that does so from 0, the rest of the nested loop lists the same
      times as the multiples of the step from there on. */
  lemma {:induction false} AlignedRun(h: nat, m: nat, step: int)
    requires step > 0 && h < 24 && m < 60 && HitsSixty(m, step) && HitsSixty(0, step)
    ensures MinuteSlots(h, m, step) + HourSlots(h + 1, step) == Multiples(60 * h + m, step)
    decreases 24 - h, 60 - m
  {
    assert (60 * h + m) / 60 == h && (60 * h + m) % 60 == m;
    var tail := Multiples(60 * h + m + step, step);
    assert Multiples(60 * h + m, step) == [Slot(h, m)] + tail;
    if m + step < 60 {
      AlignedRun(h, m + step, step);
      assert MinuteSlots(h, m + step, step) + HourSlots(h + 1, step) == tail;
      AppendAssoc([Slot(h, m)], MinuteSlots(h, m + step, step), HourSlots(h + 1, step));
    } else {
      assert m + step == 60;
      assert MinuteSlots(h, m, step) == [Slot(h, m)];
      if h + 1 < 24 {
        AlignedRun(h + 1, 0, step);
        assert HourSlots(h + 1, step) == MinuteSlots(h + 1, 0, step) + HourSlots(h + 2, step);
        assert HourSlots(h + 1, step) == tail;
      } else {
        assert HourSlots(h + 1, step) == [] == tail;
      }
    }
  }

  /** When the step divides 60 the list is exactly the multiples of the step below 24 hours. */
  lemma DividingStepIsMultiples(step: int)
    requires step > 0 && 60 % step == 0
    ensures Slots(step) == Multiples(0, step)
  {
    var q := 60 / step;
    assert q * step == 60;
    MultipleHitsSixty(step, q, 0);
    AlignedRun(0, 0, step);
    assert HourSlots(0, step) == MinuteSlots(0, 0, step) + HourSlots(1, step);
  }

  /** With a step of 7 minutes, which does not divide 60, each hour restarts at minute 0: the
      list has 24 · 9 = 216 options where the multiples of 7 below 1440 number 206. */
  lemma SevenMinuteStep()
    ensures |Slots(7)| == 216
    ensures |Multiples(0, 7)| == 206
  {
    SlotCount(7);
    CountReaches(0, 60, 7);
    CountReaches(0, 1440, 7);
  }

  // ---------------------------------------------------------------------------
  // Rendering

  /** One option button: its label and whether it carries the "selected" mark. */
  datatype TimeOption = TimeOption(text: string, selected: bool)

  /** The button of one time of day: marked when its label is the selected value. */
  function OptionFor(s: Slot, selected: Option<string>): TimeOption {
    TimeOption(FormatTime(s.hour, s.minute), selected == Some(FormatTime(s.hour, s.minute)))
  }

  /** The buttons of a run of times of day, one each, in order. */
  function OptionsFor(slots: seq<Slot>, selected: Option<string>): seq<TimeOption> {
    if |slots| == 0 then [] else [OptionFor(slots[0], selected)] + OptionsFor(slots[1..], selected)
  }

  lemma {:induction false} OptionsForAt(slots: seq<Slot>, selected: Option<string>)
    ensures |OptionsFor(slots, selected)| == |slots|
    ensures forall i :: 0 <= i < |slots| ==> OptionsFor(slots, selected)[i] == OptionFor(slots[i], selected)
  {
    if |slots| > 0 {
      var tail := OptionsFor(slots[1..], selected);
      OptionsForAt(slots[1..], selected);
      assert OptionsFor(slots, selected) == [OptionFor(slots[0], selected)] + tail;
      forall i | 0 <= i < |slots|
        ensures OptionsFor(slots, selected)[i] == OptionFor(slots[i], selected)
      {
        if i > 0 {
          assert slots[1..][i - 1] == slots[i];
        }
      }
    }
  }

  lemma {:induction false} OptionsForAppend(a: seq<Slot>, b: seq<Slot>, selected: Option<string>)
    ensures OptionsFor(a + b, selected) == OptionsFor(a, selected) + OptionsFor(b, selected)
  {
    if |a| > 0 {
      assert (a + b)[1..] == a[1..] + b;
      OptionsForAppend(a[1..], b, selected);
      AppendAssoc([OptionFor(a[0], selected)], OptionsFor(a[1..], selected), OptionsFor(b, selected));
    } else {
      assert a + b == b;
    }
  }

  /** `options` are the buttons of the hours before `h`: together with the buttons of hours
      `h`..23 they make the whole list. */
  predicate RenderedBefore(options: seq<TimeOption>, h: nat, step: int, selected: Option<string>)
    requires step > 0 && h <= 24
  {
    options + OptionsFor(HourSlots(h, step), selected) == OptionsFor(Slots(step), selected)
  }

  /** Appending the buttons of hour `h` extends the rendered prefix by one hour. */
  lemma RenderedNextHour(options: seq<TimeOption>, hour: seq<TimeOption>, h: nat, step: int, selected: Option<string>)
    requires step > 0 && h < 24
    requires RenderedBefore(options, h, step, selected)
    requires hour == OptionsFor(MinuteSlots(h, 0, step), selected)
    ensures RenderedBefore(options + hour, h + 1, step, selected)
  {
    assert HourSlots(h, step) == MinuteSlots(h, 0, step) + HourSlots(h + 1, step);
    OptionsForAppend(MinuteSlots(h, 0, step), HourSlots(h + 1, step), selected);
    AppendAssoc(options, hour, OptionsFor(HourSlots(h + 1, step), selected));
  }

  /** The nested loop of the renderer: an option per hour and minute, marked when its label is
      the selected value. */
  method RenderTimeList(step: int, selected: Option<string>) returns (options: seq<TimeOption>)
    requires step > 0
    ensures options == OptionsFor(Slots(step), selected)
  {
    options := [];
    RenderedStart(step, selected);
    var h: nat := 0;
    while h < 24
      invariant h <= 24
      invariant RenderedBefore(options, h, step, selected)
    {
      var hour := RenderHour(h, step, selected);
      RenderedNextHour(options, hour, h, step, selected);
      options := options + hour;
      h := h + 1;
    }
    RenderedEnd(options, step, selected);
  }

  /** Nothing rendered yet: the whole list is still to come. */
  lemma RenderedStart(step: int, selected: Option<string>)
    requires step > 0
    ensures RenderedBefore([], 0, step, selected)
  {
    EmptyPrefix(OptionsFor(Slots(step), selected));
  }

  /** After the last hour nothing is left to render. */
  lemma RenderedEnd(options: seq<TimeOption>, step: int, selected: Option<string>)
    requires step > 0
    requires RenderedBefore(options, 24, step, selected)
    ensures options == OptionsFor(Slots(step), selected)
  {
    EmptySuffix(options);
  }

  /** The rendered list holds one option per time of day in list order, each labelled with
      its time and marked exactly when its label is the selected value. */
  lemma RenderedOptions(step: int, selected: Option<string>)
    requires step > 0
    ensures |OptionsFor(Slots(step), selected)| == |Slots(step)|
    ensures forall i :: 0 <= i < |Slots(step)| ==> OptionsFor(Slots(step), selected)[i].text == Label(step, i)
    ensures forall i :: 0 <= i < |Slots(step)| ==>
              (OptionsFor(Slots(step), selected)[i].selected <==> selected == Some(Label(step, i)))
  {
    OptionsForAt(Slots(step), selected);
  }

  /** The inner loop for hour `h`: minutes 0, step, 2·step, ... below 60. */
  method RenderHour(h: nat, step: int, selected: Option<string>) returns (options: seq<TimeOption>)
    requires step > 0
    ensures options == OptionsFor(MinuteSlots(h, 0, step), selected)
  {
    options := [];
    EmptyPrefix(OptionsFor(MinuteSlots(h, 0, step), selected));
    var m: nat := 0;
    while m < 60
      invariant MinutesBefore(options, h, m, step, selected)
      decreases 60 - m
    {
      var text := FormatTime(h, m);
      RenderedNextMinute(options, h, m, step, selected);
      options := options + [TimeOption(text, selected == Some(text))];
      m := m + step;
    }
    EmptySuffix(options);
  }

  /** `options` are the buttons of hour `h` for the minutes before `m`. */
  predicate MinutesBefore(options: seq<TimeOption>, h: nat, m: nat, step: int, selected: Option<string>)
    requires step > 0
  {
    options + OptionsFor(MinuteSlots(h, m, step), selected) == OptionsFor(MinuteSlots(h, 0, step), selected)
  }

  /** Appending the button for minute `m` extends the rendered prefix by one slot. */
  lemma RenderedNextMinute(options: seq<TimeOption>, h: nat, m: nat, step: int, selected: Option<string>)
    requires step > 0 && m < 60
    requires MinutesBefore(options, h, m, step, selected)
    ensures MinutesBefore(options + [TimeOption(FormatTime(h, m), selected == Some(FormatTime(h, m)))], h, m + step, step, selected)
  {
    var rest := MinuteSlots(h, m + step, step);
    assert MinuteSlots(h, m, step) == [Slot(h, m)] + rest;
    OptionsForAppend([Slot(h, m)], rest, selected);
    assert OptionsFor([Slot(h, m)], selected) == [OptionFor(Slot(h, m), selected)];
    AppendAssoc(options, [OptionFor(Slot(h, m), selected)], OptionsFor(rest, selected));
  }

  /** After a choice, the rendered list marks exactly the chosen option. */
  lemma SelectedOptionUnique(step: int, k: int, i: int)
    requires step > 0 && 0 <= k < |Slots(step)| && 0 <= i < |Slots(step)|
    ensures Label(step, i) == Label(step, k) <==> i == k
  {
    if i < k {
      LabelsDistinct(step, i, k);
    } else if k < i {
      LabelsDistinct(step, k, i);
    }
  }
}

=== FILE: wrappers.dfy ===
/** Optional values: the model's stand-in for JavaScript's `null` / `undefined`. */
module Wrappers {

  datatype Option<+T> = None | Some(value: T) {

    /** The wrapped value, or `default` when there is none. */
    function GetOr(default: T): T {
      match this
      case Some(v) => v
      case None => default
    }
  }
}
